=== FILE: README.md ===
# ESTATE_HUB front-end decision logic in Dafny

ESTATE_HUB is a real-estate listing front-end (React). Visitors browse listings, keep favourites in the browser, and send inquiries. Owners manage their listings from a dashboard, and an admin approves listings and manages users. Everything the front-end decides on its own is modelled here as pure functions over immutable data:

- the browser store (session, token, listing cache, favourites);
- the route gate and the two dashboards' own entry checks;
- the role-dependent navigation;
- how API requests are built and how replies become values or errors;
- the form checks (login, registration, listing, rejection reason, inquiry);
- the list transitions of the two dashboards;
- the image carousel;
- the favourites page filter;
- the search-to-URL-to-request mapping.

Server replies, the user's confirmation answers and the sample catalogue are inputs.

Module layout (one module per source file, plus shared helpers):

- `Base`: `Option`, `Result`, the truthiness of optional strings.
- `Text`: whitespace, trimming, decimal numbers, `parseInt`.
- `Seqs`: array operations.
- `Query`: `URLSearchParams`.
- `Responses`: the `x.properties || x || []` normalisation.
- `Domain`: users, listings, locations, images.
- `Storage`: `src/utils/localStorage.ts`.
- `FavoriteList`: the list update inside `toggleFavorite`.
- `RouteGate`: `ProtectedRoute` and the route table's role sets.
- `Api`: `src/services/api.ts`.
- `EmailPattern`: the `\S+@\S+\.\S+` test.
- `Login`, `Header`, `AdminDashboard`, `OwnerDashboard`, `PropertyDetail`, `PropertyCard`, `FavoritesPage`, `HomePage`, `PropertiesPage`: the pages and components of the same names.

## Model

| member | source | states |
|---|---|---|
| Base.Or | src/pages/DashboardPage.tsx:178 | `a \|\| b` on optional strings is truthy exactly when one side is, and picks the first truthy side |
| Storage.GetProperties | src/utils/localStorage.ts:12-15 | a missing or empty entry reads as the empty catalogue; a stored entry reads successfully exactly when it holds a listing array |
| Storage.GetCurrentUser | src/utils/localStorage.ts:22-25 | a missing or empty entry reads as no session; a session read back is the stored user record |
| Storage.ClearCurrentUser | src/utils/localStorage.ts:27-29 | removes the session entry and leaves every other key and value as it was |
| Storage.GetFavorites | src/utils/localStorage.ts:36-39 | a missing or empty entry reads as no favourites; otherwise the read succeeds exactly when an id list is stored |
| Storage.ToggleFavorite | src/utils/localStorage.ts:41-53 | succeeds exactly when the favourites read does; returns the toggled list, which a later read returns too; no other entry changes |
| Storage.GetToken | src/services/api.ts:5 | a token is returned only when the `token` key holds that raw text |
| Storage.WellFormedReadsSucceed | src/utils/localStorage.ts:12-39 | when every entry holds what this front-end writes there, no read throws |
| Storage.WritesPreserveWellFormed | src/utils/localStorage.ts:8-53 | each write and the toggle keep the store in that well-formed state |
| Storage.SessionRoundTrip | src/utils/localStorage.ts:18-25 | reading the session right after saving `u` yields `u`; favourites and token are untouched |
| Storage.ClearKeepsTokenAndFavorites | src/utils/localStorage.ts:27-29 | after clearing there is no session, while the token, favourites and catalogue read as before |
| Storage.CachesRoundTrip | src/utils/localStorage.ts:8-15 | the catalogue and favourites read back exactly what was saved |
| FavoriteList.Toggled | src/utils/localStorage.ts:43-49 | an absent id is appended at the end; a present id shortens the list by one |
| FavoriteList.ToggleRemovesFirstOccurrence | src/utils/localStorage.ts:43-46 | a present id loses exactly its first occurrence, and the rest before and after it stays in place |
| FavoriteList.ToggleKeepsOthers | src/utils/localStorage.ts:41-53 | every other id keeps its membership, its multiplicity and its relative order |
| FavoriteList.ToggleCount | src/utils/localStorage.ts:43-49 | the toggled id's occurrence count drops by one, or rises from zero to one |
| FavoriteList.ToggleFlipsMembership | src/utils/localStorage.ts:41-53 | on a duplicate-free list the toggle flips membership and keeps the list duplicate-free |
| FavoriteList.ToggleTwiceAbsent | src/utils/localStorage.ts:41-53 | toggling an absent id twice restores the exact list |
| FavoriteList.ToggleTwicePresent | src/utils/localStorage.ts:41-53 | on a duplicate-free list, toggling a present id twice keeps the same ids but moves that id to the end |
| FavoriteList.ToggleParity | src/utils/localStorage.ts:41-53 | after any sequence of toggles an id is present exactly when its start state differs from the parity of its toggle count; the list stays duplicate-free |
| RouteGate.FromSession | src/components/ProtectedRoute.tsx:12-15 | the session lookup yields a user or null, never undefined |
| RouteGate.ProtectedRoute | src/components/ProtectedRoute.tsx:14-33 | children render iff a session exists and either no role list is given or it holds the role; no session goes to `/login`; a wrong role goes to `/` |
| RouteGate.NeverLoading | src/components/ProtectedRoute.tsx:15-21 | with a real session lookup the loading branch is never taken; without a role list any session renders |
| RouteGate.ConfiguredRoutes | src/App.tsx:38-46 | with the configured role sets a customer reaches neither dashboard, an owner is sent home from the admin route, and an admin reaches both |
| RouteGate.PageGate | src/pages/AdminDashboardPage.tsx:80-83 | a dashboard proceeds iff the session's role is listed, otherwise it leaves for `/login` |
| RouteGate.PageGateAgreesWithRoute | src/pages/DashboardPage.tsx:39-42 | a page's own check admits exactly the sessions the route gate renders for; the two differ only in where a wrong role is sent |
| Api.BaseUrl | src/services/api.ts:2 | the configured base when truthy, `http://localhost:5000/api` otherwise |
| Api.RequestHeaders | src/services/api.ts:9-19 | `Content-Type: application/json` iff the body is not multipart; a bearer token iff the stored token is truthy; other caller headers kept; no other header added |
| Api.PrepareRequest | src/services/api.ts:22-25 | the URL is base + endpoint; the method defaults to GET; the body is passed through |
| Api.Interpret | src/services/api.ts:27-37 | an ok reply returns its body unchanged; a failed one throws its truthy `message`, else `HTTP Error: ` followed by the decimal status; a network failure is rethrown unchanged |
| Api.HttpErrorNamesStatus | src/services/api.ts:30 | distinct statuses give distinct default error messages |
| Api.FilteredPageQueryIsEncoding | src/services/api.ts:96-120 | the admin query strings equal the query-string encoder's output (verbatim, so the URL encoding itself only for `UrlSafe` filters) for: the filter first when non-empty, then page, then limit |
| Api.PropertiesPath | src/services/api.ts:62-65 | `?query` is appended only when there are parameters |
| Api.JsonUnlessUpload | src/services/api.ts:40-138 | across the endpoint table only listing create and update omit the JSON content type; every call carries the token when one is stored; every URL starts with the base |
| Api.Call | src/services/api.ts:8-38 | the exchange sees the request built for the call, and the caller sees the interpretation of the reply |
| Query.DecodeEncode | src/services/api.ts:63 | for URL-safe keys and values, the query string reads back as the same ordered parameter list |
| Query.Get | src/pages/PropertiesPage.tsx:29 | a key is found iff some parameter has it, and the value found is that of the first parameter with the key |
| Query.SetGet | src/pages/HomePage.tsx:49-52 | after `set` the key reads the new value and every other key reads its old value |
| Query.SetKeepsKeysDistinct | src/pages/HomePage.tsx:49-52 | `set` never introduces a duplicate key |
| EmailPattern.ScanEmail | src/pages/LoginPage.tsx:24 | a one-pass scan decides exactly the unanchored pattern non-space run, `@`, non-space run, `.`, non-space run |
| EmailPattern.EmailExamples | src/pages/LoginPage.tsx:24 | surrounding text is accepted; an `@` followed directly by the dot, or a missing dot, is rejected |
| Text.TrimEmptyIffBlank | src/pages/AdminDashboardPage.tsx:133 | a string trims to empty exactly when it is all whitespace |
| Text.NatToStringRoundTrip | src/services/api.ts:30 | the decimal text of a status reads back as that number |
| Text.ParseIntOfIntToString | src/pages/PropertiesPage.tsx:43 | `parseInt` of an integer's decimal text gives that integer back |
| Login.CheckLogin | src/pages/LoginPage.tsx:30-38 | passes iff both fields are filled and the email matches; an empty field is reported before a bad email |
| Text.Utf16LengthCountsAstral | src/pages/LoginPage.tsx:98 | `length` counts every character once, plus once more for each astral character (a surrogate pair) |
| Login.AstralPasswordLongEnough | src/pages/LoginPage.tsx:98-101 | a password of three astral characters has length 6 and passes every check |
| Login.CheckRegistration | src/pages/LoginPage.tsx:88-106 | checks run in fixed order (all filled, email, at least 6 UTF-16 code units as `password.length` counts them, confirmation equal); each message appears exactly when every earlier check passed and its own fails |
| Login.PostLoginRoute | src/pages/LoginPage.tsx:63-69 | admin lands on `/admin/dashboard`, owner on `/dashboard`, anyone else on `/` |
| Login.HandleLogin | src/pages/LoginPage.tsx:27-79 | a request is made iff the checks pass; token and session are saved and the page navigates iff success, token and user are all truthy; otherwise the store is unchanged and the reply's message or the default text is shown |
| Login.LoginLandsOnAdmittedPage | src/pages/LoginPage.tsx:63-69 | every post-login destination is a page the route gate renders for that user |
| Login.HandleRegister | src/pages/LoginPage.tsx:83-131 | a request is made iff the checks pass; a `success: true` reply resets the form to a blank customer form and shows the account-created toast, and only that reply resets it; a `success: false` reply keeps the form and shows nothing; errors keep the form and show their message |
| Login.RegistrationRoles | src/pages/LoginPage.tsx:278-279 | the reset role is selectable, and admin is never selectable |
| Login.ShortPasswordRefused | src/pages/LoginPage.tsx:98-101 | a five-character password with all else valid is refused with the length message and no request |
| Login.OwnerLoginScenario | src/pages/LoginPage.tsx:49-69 | an owner's successful login saves token and session and lands on `/dashboard` |
| Header.NavLinks | src/components/Header.tsx:19-31 | the base three links always come first; My Properties is added iff owner or admin; Admin Panel is added, last, iff admin |
| Header.AtMostOneActive | src/components/Header.tsx:17 | whatever the current path, no two navigation links are highlighted at once |
| Header.Logout | src/components/Header.tsx:12-15 | logout removes only the session entry, leaving every other key and value as it was, and sends the browser to `/`; the token and favourites still read as before |
| Domain.DashboardLocationLabel | src/pages/AdminDashboardPage.tsx:210-214 | a string location passes through; an address with truthy city and state gives `city, state` |
| Domain.DashboardLocationFallback | src/pages/DashboardPage.tsx:216-220 | an address or missing location falls back to `Location` exactly when city or state is missing, and is never empty |
| AdminDashboard.IssuedUntilFailure | src/pages/AdminDashboardPage.tsx:86-108 | awaited in turn in one `try`, the sent requests are a prefix of the list, non-empty when the list is; all but the last succeeded, and a stop before the end follows a failure |
| AdminDashboard.IssuedIffEarlierSucceeded | src/pages/AdminDashboardPage.tsx:86-108 | a request is sent exactly when every request before it succeeded |
| AdminDashboard.Open | src/pages/AdminDashboardPage.tsx:78-114 | a non-admin or absent session leaves for `/login` and requests nothing; an admin requests pending listings, users, logs and statistics in that order, stopping after the first failure; all four are sent iff the first three succeed |
| AdminDashboard.Unlisted | src/pages/AdminDashboardPage.tsx:120-122 | the remaining listings are an order-preserving subsequence holding every listing not keyed by the id and none that is |
| AdminDashboard.UnlistedExactly | src/pages/AdminDashboardPage.tsx:120-122 | every listing keyed by the id disappears; every other listing keeps its multiplicity; removing twice is removing once |
| AdminDashboard.Approve | src/pages/AdminDashboardPage.tsx:116-130 | success removes the approved listing and changes nothing else; failure changes nothing and shows the error |
| AdminDashboard.Reject | src/pages/AdminDashboardPage.tsx:132-153 | no request is made iff no listing is selected or the reason is all whitespace; success removes the listing, clears the selection and reason and toasts; a failed request changes nothing and shows the server's message |
| AdminDashboard.UpdateUsers | src/pages/AdminDashboardPage.tsx:159-161 | users keyed by `_id` or `id` are updated, all others kept, positions preserved |
| AdminDashboard.ChangeRole | src/pages/AdminDashboardPage.tsx:155-170 | success sets the role of the matching users only and closes the role editor; listings untouched; failure changes nothing |
| AdminDashboard.Deactivate | src/pages/AdminDashboardPage.tsx:172-190 | a declined confirmation does nothing; success deactivates the matching users; failure changes nothing |
| AdminDashboard.DeactivateOnlyMatches | src/pages/AdminDashboardPage.tsx:178-182 | afterwards a user is active iff it was active and is not matched; no other field of any user changes |
| AdminDashboard.ApproveAndRejectAgree | src/pages/AdminDashboardPage.tsx:120-143 | approving and rejecting the same listing leave the same pending list |
| OwnerDashboard.OwnerQuery | src/pages/DashboardPage.tsx:47-48 | the listing request filters by `ownerId` equal to the user's `_id`, falling back to `id` |
| OwnerDashboard.Open | src/pages/DashboardPage.tsx:37-56 | only owners and admins proceed, and only they request their listings; anyone else leaves for `/login` |
| OwnerDashboard.Reset | src/pages/DashboardPage.tsx:61-78 | the form and image lists go blank and editing ends, while the listing list is kept |
| OwnerDashboard.AddImages | src/pages/DashboardPage.tsx:80-87 | a batch that takes the new files past ten is refused with nothing changed; otherwise it is appended in order |
| OwnerDashboard.AddImagesBounded | src/pages/DashboardPage.tsx:80-87 | from at most ten new files, no sequence of additions exceeds ten; existing images are neither counted nor changed |
| OwnerDashboard.RemoveImage | src/pages/DashboardPage.tsx:89-95 | drops exactly that existing image and queues its upload id only when it has one; nothing else changes |
| OwnerDashboard.RemoveNewImage | src/pages/DashboardPage.tsx:97-99 | drops exactly that new file; nothing else changes |
| OwnerDashboard.SubmitEntries | src/pages/DashboardPage.tsx:119-136 | the body starts with the eight form fields, then holds one deletion entry when the queue is non-empty, and one entry per file |
| OwnerDashboard.SubmitBodyCarriesImages | src/pages/DashboardPage.tsx:130-136 | a reader of the body recovers exactly the new files in order and exactly the queued deletions; an empty queue sends no deletion entry |
| OwnerDashboard.Replaced | src/pages/DashboardPage.tsx:142-144 | listings keyed by the id are replaced by the server's copy; all others are kept in place |
| OwnerDashboard.Submit | src/pages/DashboardPage.tsx:101-159 | nothing is sent iff a required field is missing; with an editing id the listing is updated and replaced, otherwise created and appended, then the form resets with the updated or created toast; an error changes nothing and shows its message |
| OwnerDashboard.EditLocation | src/pages/DashboardPage.tsx:166-168 | a string location becomes the street of an empty US address; the city is then missing iff it was a string or had no city |
| OwnerDashboard.Edit | src/pages/DashboardPage.tsx:161-180 | the form takes every listing field (title, description, price, type, bedrooms, bathrooms, area, images) and the location as re-shaped for editing; existing images are its images, the queues are empty, and the editing id is its `_id` or `id` |
| OwnerDashboard.PlainLocationCannotBeResubmitted | src/pages/DashboardPage.tsx:105-114 | editing a listing with a string location and submitting unchanged is refused by the city check, with no request |
| OwnerDashboard.Delete | src/pages/DashboardPage.tsx:182-193 | a declined confirmation does nothing; success keeps, in order, exactly the listings not keyed by the id, each with its original multiplicity; failure changes nothing |
| PropertyCard.CardKey | src/components/PropertyCard.tsx:17 | the card's key is `id` when truthy, else `_id`, and is truthy iff either is |
| PropertyCard.InitialFlag | src/components/PropertyCard.tsx:15-19 | the card shows a favourite iff its key is among the stored favourites |
| PropertyCard.Toggle | src/components/PropertyCard.tsx:21-27 | the heart stores the favourites toggled under the card's key and leaves every other entry alone; the flag is set iff the key was absent or still has another copy; an id-less card changes nothing and reads as set |
| PropertyCard.ToggleByKey | src/components/PropertyCard.tsx:21-27 | the toggle writes what `toggleFavorite` writes, and the flag is membership of the key in the list stored afterwards |
| PropertyCard.ToggleFlipsCard | src/components/PropertyCard.tsx:15-27 | on a duplicate-free list the toggle flips the card's flag, and a card mounted afterwards shows the new flag |
| PropertyCard.ImageSource | src/components/PropertyCard.tsx:38-40 | a URL image is itself and an upload record gives its URL |
| PropertyCard.CardLocationLabel | src/components/PropertyCard.tsx:43-48 | a string location passes through; otherwise the label is `city, state`, with missing parts reading `undefined` |
| PropertyCard.CardLocationNeverFallsBack | src/components/PropertyCard.tsx:47 | the template is never empty, so the fallback text never shows; the card agrees with the dashboards exactly where they show `city, state` |
| PropertyCard.ShowsRoomsExceptLand | src/components/PropertyCard.tsx:106-122 | the bed and bath row shows for every kind except land |
| PropertyDetail.NextIndex | src/pages/PropertyDetailPage.tsx:58-63 | within range, next stays in range and is the successor modulo the image count |
| PropertyDetail.PrevIndex | src/pages/PropertyDetailPage.tsx:51-56 | within range, prev stays in range and is the predecessor modulo the image count |
| PropertyDetail.PrevNextInverse | src/pages/PropertyDetailPage.tsx:51-63 | the two arrows undo each other |
| PropertyDetail.NextTimesWraps | src/pages/PropertyDetailPage.tsx:58-63 | within a full round, k presses move k places, wrapping past the end once |
| PropertyDetail.FullCycle | src/pages/PropertyDetailPage.tsx:58-63 | pressing next once per image returns to the starting image |
| PropertyDetail.LoadWith | src/pages/PropertyDetailPage.tsx:21-42 | no route id means no request; a failed load leaves the page empty; a loaded listing starts at image 0, flagged iff its key is stored |
| PropertyDetail.OpenAsWritten | src/pages/PropertyDetailPage.tsx:31-32 | the initial flag is membership of `_id`, falling back to the route id, among the stored favourites |
| PropertyDetail.Open | src/pages/PropertyDetailPage.tsx:31-32 | intended: the initial flag is membership of the card's key, the key the toggle writes |
| PropertyDetail.Next | src/pages/PropertyDetailPage.tsx:58-63 | without a listing the arrow does nothing; otherwise only the index moves |
| PropertyDetail.Prev | src/pages/PropertyDetailPage.tsx:51-56 | without a listing the arrow does nothing; otherwise only the index moves |
| PropertyDetail.ToggleWith | src/pages/PropertyDetailPage.tsx:44-49 | without a listing nothing happens; otherwise the flag becomes stored membership after the toggle, and the toast reports the flag from before it |
| PropertyDetail.ToggleAsWritten | src/pages/PropertyDetailPage.tsx:46 | the stored favourites are toggled under `property.id` |
| PropertyDetail.Toggle | src/pages/PropertyDetailPage.tsx:46 | intended: the stored favourites are toggled under the card's key |
| PropertyDetail.AsWrittenFlagDisagrees | src/pages/PropertyDetailPage.tsx:31-48 | with id "1", `_id` "abc" and favourites ["1"], the page shows the listing as not favourited; pressing the heart removes it while announcing it was added |
| PropertyDetail.ToggleFlipsFlag | src/pages/PropertyDetailPage.tsx:31-48 | with the single key the page agrees with the card, the toggle flips the flag, the toast names what happened, and reopening shows the new flag |
| PropertyDetail.SubmitInquiry | src/pages/PropertyDetailPage.tsx:65-90 | accepted iff all three fields are filled and the email matches; an empty field is reported first; acceptance clears the form |
| FavoritesPage.Favourited | src/pages/FavoritesPage.tsx:19-21 | the shown listings are a catalogue-order subsequence: exactly those whose `id` is a stored favourite, each as many times as the catalogue holds it |
| FavoritesPage.Refresh | src/pages/FavoritesPage.tsx:26-31 | the storage listener recomputes the same filter over what is stored, without seeding |
| FavoritesPage.Load | src/pages/FavoritesPage.tsx:10-22 | an empty catalogue is replaced by the samples and saved before filtering; a non-empty one is used as stored, with nothing written |
| FavoritesPage.LoadIsSeedThenRefresh | src/pages/FavoritesPage.tsx:10-31 | what the page shows after loading is what the listener computes from the store afterwards |
| FavoritesPage.ServerOnlyListingsNeverShown | src/pages/FavoritesPage.tsx:20 | a listing without `id` never shows, even when its `_id` is favourited |
| FavoritesPage.SavedLabel | src/pages/FavoritesPage.tsx:49 | the noun is singular exactly for a count of one |
| HomePage.SearchQuery | src/pages/HomePage.tsx:49-52 | `location` is set iff non-empty; `type` and `maxPrice` iff present and not `all`; no other key; empty iff nothing is selected |
| HomePage.SearchTarget | src/pages/HomePage.tsx:53 | the target always starts with `/properties?` and is exactly that iff nothing is selected |
| HomePage.SearchReachesApi | src/pages/HomePage.tsx:47-54 | for URL-safe field values (see Query.Encode under Left out), a home search, read back by the listing page, produces request parameters carrying the same filters |
| HomePage.SearchValuesAsApiValues | src/pages/PropertiesPage.tsx:27-47 | the location arrives as `city`, the type as `type`, the price as a number, `sortBy` the sort order; no other key carries a value |
| HomePage.Featured | src/pages/HomePage.tsx:15-29 | a failed request shows no listings; any reply is shown through `properties \|\| response \|\| []` |
| Responses.ListOf | src/pages/HomePage.tsx:19 | `properties` when present, else the reply itself; a falsy reply gives the empty list; only an object without the field is not a list |
| PropertiesPage.PriceText | src/pages/PropertiesPage.tsx:43 | the price is `NaN` exactly when it does not parse, and otherwise reads back as the same integer |
| PropertiesPage.ApiParams | src/pages/PropertiesPage.tsx:27-47 | each request key carries exactly the value the URL prescribes for it, and no key twice |
| PropertiesPage.ControlsFrom | src/pages/PropertiesPage.tsx:29-45 | each control is set from the URL only when that filter is forwarded, otherwise kept; the sort order is never taken from the URL |
| PropertiesPage.Results | src/pages/PropertiesPage.tsx:49-53 | a failed request shows no listings; any reply is shown through `properties \|\| response \|\| []` |
| PropertiesPage.BareUrlSortsOnly | src/pages/PropertiesPage.tsx:18-47 | with no URL parameters the request carries only the sort order, which on first render is `-createdAt` |

## Left out

- Network I/O (`fetch`, `response.json()`): each exchange's outcome is an input.
- The base-URL environment lookup: the configured value is an input.
- Rendering, React hooks, loading and submitting flags, `console` logging, and the Google Maps frame are not modelled. The toast is kept as an output value. `confirm()` is a boolean input. `navigate` and `window.location` are output values.
- `Intl.NumberFormat`, `toLocaleString` and `Date` formatting are not modelled.
- Fractional prices: prices and areas are integers.
- Query.Encode: emits keys and values verbatim. This matches the browser only for the characters `UrlSafe` admits; percent-encoding of other characters is not modelled.
- PropertiesPage.PriceText: the price is an exact integer. `parseInt` returns a double, so beyond 2^53 the sent value is rounded, and from 10^21 it is written in exponent form; floating point is not modelled.
- Text.ParseInt: reads decimal digits only. The `0x` prefix and the float-like forms `parseInt` also accepts are not modelled.
- Storage: JSON text is represented by the document it encodes. A stored entry that is not what this front-end writes reads as an error, where the code's unguarded `JSON.parse` would throw. The tolerance of corrupt data described in the design notes is not in the code and is not modelled.
- Storage.GetToken: a token entry holding a JSON document reads as absent. The front-end only ever writes raw text there.
- Header.Logout: the design notes say logout clears the session. The code removes only the session entry and keeps the `token` entry; the model follows the code.
- PropertyCard.ToggleByKey: a listing with neither `id` nor `_id` leaves the stored ids unchanged and reads as favourited. The code appends a `null` entry that no later lookup matches, so the only observable effect is kept: the flag is true.
- PropertyCard.Toggle: for a card with neither `id` nor `_id` the contract promises the store unchanged and the flag true, where the code appends `null` to the stored ids; the same deviation as `PropertyCard.ToggleByKey`.
- PropertyDetail.ToggleAsWritten: it toggles through `PropertyCard.ToggleByKey` under `property.id`, so a server listing with only `_id`, where the code calls `toggleFavorite(undefined)` and appends `null`, leaves the stored ids unchanged in the model.
- PropertyDetail.ToggleWith: a corrupt favourites entry makes the code throw from the click handler. The model leaves everything unchanged with no toast.
- The inquiry "send" is not modelled. The source has no request there, only its validation.
- The admin console's load results are not modelled: the log list, the statistics, and the normalisation of each load reply. So is the `catch` branch's emptying of the lists after a failed load. Only the entry decision and which requests are sent, given each request's outcome, are modelled. The `ToggleFeatured`, `AllProperties` and `CurrentUser` endpoints are in the endpoint table but no modelled page calls them.
- The owner dashboard's load reply normalisation is not modelled. It is the same `Responses.ListOf` rule the other pages use.
- The sample catalogue of src/data/mockData.ts is a parameter (`samples`). Listing fields no modelled decision reads (`status`, `views`, `ownerId`, `createdAt`, coordinates) are omitted.
- src/components/SearchBar.tsx only reads form fields into a record; its record is `HomePage.SearchFields`.
- Roles outside admin, owner and customer are one `OtherRole` case.

## Findings

| source | as written | input that shows it | evidently intended | confidence | as-written member | corrected member |
|---|---|---|---|---|---|---|
| src/pages/PropertyDetailPage.tsx:32,46 | the initial favourite flag tests `_id \|\| <route id>` but the toggle writes `property.id` (and the card writes `id \|\| _id`) | a listing with id "1", `_id` "abc", favourites ["1"], opened from its card at `/property/1`: shown as not favourited; pressing the heart removes "1" and says "Added to favorites" | look up and toggle the same key the card uses | medium, not executed | PropertyDetail.AsWrittenFlagDisagrees | PropertyDetail.ToggleFlipsFlag |

=== FILE: admin_dashboard.dfy ===
/** The admin console's state transitions (src/pages/AdminDashboardPage.tsx):
    the entry check, and what approving, rejecting, re-roling and deactivating
    do to the page's pending-listing and user lists, with the reply of each
    request as an input. */
module AdminDashboard {
  import opened Base
  import opened Domain
  import opened Text
  import opened Seqs
  import Api
  import RouteGate

  const RejectReasonText := "Please provide a rejection reason"
  const ApprovedText := "Property approved successfully"
  const RejectedText := "Property rejected"
  const RoleUpdatedText := "User role updated"
  const DeactivatedText := "User deactivated"

  /** The requests the console issues on entry, in order: pending listings, users, logs, statistics. */
  const LoadCalls: seq<Api.ApiCall> :=
    [Api.PendingProperties(1, 50), Api.Users("", 1, 100), Api.Logs(1, 50), Api.Stats]

  /** Awaiting `calls` one after another inside one `try`: each request is sent
      only after every earlier one succeeded, and the first failure ends the run. */
  function IssuedUntilFailure(calls: seq<Api.ApiCall>, answer: Api.ApiCall -> Outcome): (sent: seq<Api.ApiCall>)
    ensures |sent| <= |calls| && sent == calls[..|sent|]
    ensures |calls| > 0 ==> |sent| > 0
    ensures forall k :: 0 <= k < |sent| - 1 ==> answer(sent[k]).Done?
    ensures |sent| < |calls| ==> answer(sent[|sent| - 1]).Failed?
    decreases |calls|
  {
    if |calls| == 0 then []
    else if answer(calls[0]).Failed? then [calls[0]]
    else [calls[0]] + IssuedUntilFailure(calls[1..], answer)
  }

  /** A request is sent exactly when every request before it succeeded. */
  lemma IssuedIffEarlierSucceeded(calls: seq<Api.ApiCall>, answer: Api.ApiCall -> Outcome, k: int)
    requires 0 <= k < |calls|
    ensures k < |IssuedUntilFailure(calls, answer)| <==> forall j :: 0 <= j < k ==> answer(calls[j]).Done?
  {
  }

  /** Entry: a non-admin or absent session is sent to `/login` and nothing is
      requested; an admin's loads run in order until one fails, `answer` being
      the server's outcome for each request. */
  function Open(session: Option<User>, answer: Api.ApiCall -> Outcome): (r: (RouteGate.PageEntry, seq<Api.ApiCall>))
    ensures r.0.Proceed? <==> session.Some? && session.value.role == Admin
    ensures !r.0.Proceed? ==> r.0 == RouteGate.LeaveFor(RouteGate.LoginPath) && r.1 == []
    ensures r.0.Proceed? ==> 1 <= |r.1| <= |LoadCalls| && r.1 == LoadCalls[..|r.1|]
    ensures r.0.Proceed? ==> (r.1 == LoadCalls <==> forall j :: 0 <= j < 3 ==> answer(LoadCalls[j]).Done?)
    ensures r.0.Proceed? && r.1 != LoadCalls ==> answer(r.1[|r.1| - 1]).Failed?
  {
    var entry := RouteGate.PageGate(session, RouteGate.AdminRoles);
    if entry.Proceed? then
      var sent := IssuedUntilFailure(LoadCalls, answer);
      IssuedIffEarlierSucceeded(LoadCalls, answer, 3);
      (entry, sent)
    else (entry, [])
  }

  /** The page state the handlers read and write. */
  datatype AdminState = AdminState(
    pending: seq<Property>, users: seq<User>,
    rejectingId: Id, reason: string, changingRoleId: Id)

  /** One handler run: the new state, the request issued (if any), the toast. */
  datatype Step = Step(state: AdminState, request: Option<Api.ApiCall>, toast: Toast)

  /** `(p._id || p.id) === id` */
  predicate ListingKeyed(p: Property, id: string) {
    Is(ServerKey(p), id)
  }

  /** `u._id === id || u.id === id` */
  predicate UserKeyed(u: User, id: string) {
    Is(u.mongoId, id) || Is(u.id, id)
  }

  /** `pending.filter(p => (p._id || p.id) !== id)` */
  function Unlisted(pending: seq<Property>, id: string): (r: seq<Property>)
    ensures forall k :: 0 <= k < |r| ==> !ListingKeyed(r[k], id) && r[k] in pending
    ensures forall k :: 0 <= k < |pending| && !ListingKeyed(pending[k], id) ==> pending[k] in r
    ensures IsSubsequence(r, pending)
  {
    FilterIsSubsequence(pending, (p: Property) => !ListingKeyed(p, id));
    Filter(pending, (p: Property) => !ListingKeyed(p, id))
  }

  /** Removal drops every listing keyed by the id and keeps every other listing as
      many times as it occurred; removing twice is removing once. */
  lemma UnlistedExactly(pending: seq<Property>, id: string, q: Property)
    ensures ListingKeyed(q, id) ==> Count(Unlisted(pending, id), q) == 0
    ensures !ListingKeyed(q, id) ==> Count(Unlisted(pending, id), q) == Count(pending, q)
    ensures Unlisted(Unlisted(pending, id), id) == Unlisted(pending, id)
  {
    FilterCount(pending, (p: Property) => !ListingKeyed(p, id), q);
    FilterIdempotent(pending, (p: Property) => !ListingKeyed(p, id));
  }

  /** `handleApprove(id)` */
  function Approve(st: AdminState, id: string, reply: Outcome): (r: Step)
    ensures r.request == Some(Api.Approve(id))
    ensures reply.Done? ==> r.state == st.(pending := Unlisted(st.pending, id)) && r.toast == Success(ApprovedText)
    ensures reply.Failed? ==> r.state == st && r.toast == Failure(reply.message)
  {
    var request := Some(Api.Approve(id));
    match reply
    case Done => Step(st.(pending := Unlisted(st.pending, id)), request, Success(ApprovedText))
    case Failed(m) => Step(st, request, Failure(m))
  }

  /** `handleReject()`: needs a selected listing and a reason that is not all whitespace;
      the reason is sent as typed. */
  function Reject(st: AdminState, reply: Outcome): (r: Step)
    ensures r.request.None? <==> !Truthy(st.rejectingId) || Blank(st.reason)
    ensures r.request.None? ==> r.state == st && r.toast == Failure(RejectReasonText)
    ensures r.request.Some? ==> r.request.value == Api.Reject(st.rejectingId.value, st.reason)
    ensures r.request.Some? && reply.Done? ==>
              && r.state == st.(pending := Unlisted(st.pending, st.rejectingId.value), rejectingId := None, reason := "")
              && r.toast == Success(RejectedText)
    ensures reply.Failed? ==> r.state == st
    ensures r.request.Some? && reply.Failed? ==> r.toast == Failure(reply.message)
  {
    TrimEmptyIffBlank(st.reason);
    if !Truthy(st.rejectingId) || Trim(st.reason) == "" then Step(st, None, Failure(RejectReasonText))
    else
      var id := st.rejectingId.value;
      var request := Some(Api.Reject(id, st.reason));
      match reply
      case Done => Step(st.(pending := Unlisted(st.pending, id), rejectingId := None, reason := ""), request, Success(RejectedText))
      case Failed(m) => Step(st, request, Failure(m))
  }

  /** The users after `f` is applied to every user keyed by the id. */
  function UpdateUsers(users: seq<User>, id: string, f: User -> User): (r: seq<User>)
    ensures |r| == |users|
    ensures forall k :: 0 <= k < |users| ==> r[k] == (if UserKeyed(users[k], id) then f(users[k]) else users[k])
  {
    Map(users, (u: User) => if UserKeyed(u, id) then f(u) else u)
  }

  /** `handleChangeRole(id, role)` */
  function ChangeRole(st: AdminState, id: string, role: Role, reply: Outcome): (r: Step)
    ensures r.request == Some(Api.ChangeUserRole(id, role))
    ensures reply.Done? ==> |r.state.users| == |st.users| && r.state.changingRoleId == None && r.toast == Success(RoleUpdatedText)
    ensures reply.Done? ==> forall k :: 0 <= k < |st.users| ==>
              r.state.users[k] == (if UserKeyed(st.users[k], id) then st.users[k].(role := role) else st.users[k])
    ensures reply.Done? ==> r.state.pending == st.pending && r.state.rejectingId == st.rejectingId && r.state.reason == st.reason
    ensures reply.Failed? ==> r.state == st && r.toast == Failure(reply.message)
  {
    var request := Some(Api.ChangeUserRole(id, role));
    match reply
    case Done =>
      var users := UpdateUsers(st.users, id, (u: User) => u.(role := role));
      Step(st.(users := users, changingRoleId := None), request, Success(RoleUpdatedText))
    case Failed(m) => Step(st, request, Failure(m))
  }

  /** `handleDeactivateUser(id)`, with the answer to the confirmation dialog as an input. */
  function Deactivate(st: AdminState, id: string, confirmed: bool, reply: Outcome): (r: Step)
    ensures !confirmed ==> r == Step(st, None, Silent)
    ensures confirmed ==> r.request == Some(Api.Deactivate(id))
    ensures confirmed && reply.Done? ==> r.state == st.(users := UpdateUsers(st.users, id, (u: User) => u.(isActive := false)))
    ensures confirmed && reply.Done? ==> r.toast == Success(DeactivatedText)
    ensures confirmed && reply.Failed? ==> r.state == st && r.toast == Failure(reply.message)
  {
    if !confirmed then Step(st, None, Silent)
    else
      var request := Some(Api.Deactivate(id));
      match reply
      case Done => Step(st.(users := UpdateUsers(st.users, id, (u: User) => u.(isActive := false))), request, Success(DeactivatedText))
      case Failed(m) => Step(st, request, Failure(m))
  }

  /** After a confirmed, successful deactivation a user is active exactly when it was
      active and is not keyed by the id, and no other field of any user changes. */
  lemma DeactivateOnlyMatches(st: AdminState, id: string)
    ensures var users := Deactivate(st, id, true, Done).state.users;
            && |users| == |st.users|
            && (forall k :: 0 <= k < |users| ==> (users[k].isActive <==> st.users[k].isActive && !UserKeyed(st.users[k], id)))
            && (forall k :: 0 <= k < |users| ==> users[k].(isActive := st.users[k].isActive) == st.users[k])
  {
  }

  /** A successful approval and a successful rejection of the same listing leave the same pending list. */
  lemma ApproveAndRejectAgree(st: AdminState, id: string)
    requires st.rejectingId == Some(id) && id != "" && !Blank(st.reason)
    ensures Approve(st, id, Done).state.pending == Reject(st, Done).state.pending
  {
  }
}

=== FILE: api.dfy ===
/** The request client of src/services/api.ts: how `apiCall` builds a request
    (URL, method, headers, body) and how it turns the HTTP exchange into a
    value or a thrown error, and the endpoint table of `authAPI`,
    `propertiesAPI` and `adminAPI`. The network exchange itself is an input. */
module Api {
  import opened Base
  import opened Text
  import opened Domain
  import opened Query
  import opened Seqs

  const DefaultBaseUrl := "http://localhost:5000/api"
  const ContentType := "Content-Type"
  const Authorization := "Authorization"
  const JsonMime := "application/json"

  /** `import.meta.env.VITE_API_URL || "http://localhost:5000/api"` */
  function BaseUrl(configured: Id): (url: string)
    ensures Truthy(configured) ==> url == configured.value
    ensures !Truthy(configured) ==> url == DefaultBaseUrl
  {
    Or(configured, Some(DefaultBaseUrl)).value
  }

  datatype Method = GET | POST | PUT | DELETE

  /** An uploaded file, opaque to the front-end. */
  datatype File = File(name: string)

  /** One value of a multipart body; JSON-encoded fields carry the encoded document. */
  datatype FormValue =
    | FormText(text: string)
    | FormLocation(location: Location)
    | FormIdList(ids: seq<string>)
    | FormFile(file: File)

  datatype FormEntry = FormEntry(name: string, value: FormValue)

  /** The JSON documents the client sends as request bodies. */
  datatype Payload =
    | Credentials(email: string, password: string)
    | Registration(name: string, email: string, password: string, confirmPassword: string, role: Role)
    | ReasonPayload(reason: string)
    | RolePayload(role: Role)

  /** `options.body`: none, `JSON.stringify(payload)`, or a `FormData`. */
  datatype Body = NoBody | JsonBody(payload: Payload) | Multipart(entries: seq<FormEntry>)

  datatype Options = Options(verb: Option<Method>, body: Body, headers: map<string, string>)

  datatype Request = Request(url: string, verb: Method, headers: map<string, string>, body: Body)

  /** The headers `apiCall` sends: the caller's, then `Content-Type: application/json`
      unless the body is a `FormData`, then the bearer token if it is truthy. */
  function RequestHeaders(caller: map<string, string>, body: Body, token: Option<string>): (h: map<string, string>)
    ensures !body.Multipart? ==> ContentType in h && h[ContentType] == JsonMime
    ensures body.Multipart? ==> (ContentType in h <==> ContentType in caller)
    ensures body.Multipart? && ContentType in caller ==> h[ContentType] == caller[ContentType]
    ensures token.Some? && token.value != "" ==> Authorization in h && h[Authorization] == "Bearer " + token.value
    ensures !(token.Some? && token.value != "") ==> (Authorization in h <==> Authorization in caller)
    ensures !(token.Some? && token.value != "") && Authorization in caller ==> h[Authorization] == caller[Authorization]
    ensures forall k :: k in caller && k != ContentType && k != Authorization ==> k in h && h[k] == caller[k]
    ensures forall k :: k in h ==> k in caller || k == ContentType || k == Authorization
  {
    var withType := if body.Multipart? then caller else caller[ContentType := JsonMime];
    if Truthy(token) then withType[Authorization := "Bearer " + token.value] else withType
  }

  /** The `fetch` call `apiCall` issues: `${API_BASE_URL}${endpoint}`, the caller's
      method (GET when absent) and body, and the computed headers. */
  function PrepareRequest(base: string, endpoint: string, options: Options, token: Option<string>): (req: Request)
    ensures req.url == base + endpoint && req.body == options.body
    ensures options.verb.None? ==> req.verb == GET
    ensures options.verb.Some? ==> req.verb == options.verb.value
  {
    Request(base + endpoint, options.verb.GetOr(GET), RequestHeaders(options.headers, options.body, token), options.body)
  }

  /** What the network produced: a parsed JSON reply (`ok`, `status`, the body
      and its `message` field), or a failure of `fetch` or `response.json()`. */
  datatype Exchange<T> = Replied(ok: bool, status: nat, data: T, message: Id) | Broken(error: string)

  /** The message `apiCall` throws on a non-ok status. */
  function HttpErrorMessage(status: nat, message: Id): string {
    if Truthy(message) then message.value else "HTTP Error: " + NatToString(status)
  }

  /** The second half of `apiCall`: the parsed body on an ok status, otherwise a
      thrown error; a transport or parse failure is rethrown unchanged. */
  function Interpret<T>(x: Exchange<T>): (r: Result<T>)
    ensures x.Replied? && x.ok ==> r == Ok(x.data)
    ensures x.Replied? && !x.ok && Truthy(x.message) ==> r == Err(x.message.value)
    ensures x.Replied? && !x.ok && !Truthy(x.message) ==>
              && r.Err? && |r.message| > 12 && r.message[..12] == "HTTP Error: "
              && AllDigits(r.message[12..]) && DigitsValue(r.message[12..]) == x.status
    ensures x.Broken? ==> r == Err(x.error)
  {
    match x
    case Broken(e) => Err(e)
    case Replied(ok, status, data, message) =>
      NatToStringRoundTrip(status);
      assert ("HTTP Error: " + NatToString(status))[12..] == NatToString(status);
      if ok then Ok(data) else Err(HttpErrorMessage(status, message))
  }

  /** The generic error text carries the status, and distinct statuses give distinct texts. */
  lemma HttpErrorNamesStatus(s1: nat, s2: nat)
    requires HttpErrorMessage(s1, None) == HttpErrorMessage(s2, None)
    ensures s1 == s2
  {
    var p := "HTTP Error: ";
    assert NatToString(s1) == HttpErrorMessage(s1, None)[|p|..];
    assert NatToString(s2) == HttpErrorMessage(s2, None)[|p|..];
    NatToStringInjective(s1, s2);
  }

  /** Every request the API layer can make. */
  datatype ApiCall =
    | Register(registration: Payload)
    | Login(credentials: Payload)
    | CurrentUser
    | ListProperties(params: seq<Param>)
    | Featured
    | PropertyById(id: string)
    | CreateProperty(form: seq<FormEntry>)
    | UpdateProperty(id: string, form: seq<FormEntry>)
    | DeleteProperty(id: string)
    | PendingProperties(page: int, limit: int)
    | AllProperties(statusFilter: string, page: int, limit: int)
    | Approve(id: string)
    | Reject(id: string, reason: string)
    | ToggleFeatured(id: string)
    | Users(roleFilter: string, page: int, limit: int)
    | ChangeUserRole(id: string, role: Role)
    | Deactivate(id: string)
    | Logs(page: int, limit: int)
    | Stats

  /** `page=P&limit=L` */
  function PageQuery(page: int, limit: int): string {
    "page=" + IntToString(page) + "&limit=" + IntToString(limit)
  }

  /** The admin list query: `?key=F&page=P&limit=L` for a non-empty filter, `?page=P&limit=L` otherwise. */
  function FilteredPageQuery(key: string, filter: string, page: int, limit: int): string {
    if filter != "" then "?" + key + "=" + filter + "&" + PageQuery(page, limit) else "?" + PageQuery(page, limit)
  }

  /** `page=P&limit=L` is the encoding of the two parameters in that order. */
  lemma PageQueryIsEncoding(page: int, limit: int)
    ensures Encode([Param("page", IntToString(page)), Param("limit", IntToString(limit))]) == PageQuery(page, limit)
  {
    var pg := Param("page", IntToString(page));
    var lm := Param("limit", IntToString(limit));
    assert [pg] + [lm] == [pg, lm];
    EncodeCons(pg, [lm]);
    EncodeSingle(lm);
  }

  /** The hand-written admin query strings agree with the general query-string
      encoder: the filter pair first when the filter is non-empty, then page and limit. */
  lemma FilteredPageQueryIsEncoding(key: string, filter: string, page: int, limit: int)
    ensures var ps := (if filter != "" then [Param(key, filter)] else []) + [Param("page", IntToString(page)), Param("limit", IntToString(limit))];
            FilteredPageQuery(key, filter, page, limit) == "?" + Encode(ps)
  {
    var tail := [Param("page", IntToString(page)), Param("limit", IntToString(limit))];
    PageQueryIsEncoding(page, limit);
    if filter != "" {
      var f := Param(key, filter);
      EncodeCons(f, tail);
      assert "?" + key + "=" + filter + "&" + PageQuery(page, limit) == "?" + (Pair(f) + "&" + Encode(tail));
    } else {
      assert [] + tail == tail;
    }
  }

  /** `propertiesAPI.getAll`: `?query` only when the encoded query is non-empty. */
  function PropertiesPath(params: seq<Param>): (path: string)
    ensures |params| == 0 ==> path == "/properties"
    ensures |params| > 0 ==> path == "/properties?" + Encode(params)
  {
    var query := Encode(params);
    "/properties" + (if query != "" then "?" + query else "")
  }

  /** The endpoint and options each API function passes to `apiCall`. */
  function Route(call: ApiCall): (string, Options) {
    match call
    case Register(p) => ("/auth/register", Options(Some(POST), JsonBody(p), map[]))
    case Login(p) => ("/auth/login", Options(Some(POST), JsonBody(p), map[]))
    case CurrentUser => ("/auth/me", Options(Some(GET), NoBody, map[]))
    case ListProperties(ps) => (PropertiesPath(ps), Options(None, NoBody, map[]))
    case Featured => ("/properties/featured", Options(None, NoBody, map[]))
    case PropertyById(id) => ("/properties/" + id, Options(None, NoBody, map[]))
    case CreateProperty(form) => ("/properties", Options(Some(POST), Multipart(form), map[]))
    case UpdateProperty(id, form) => ("/properties/" + id, Options(Some(PUT), Multipart(form), map[]))
    case DeleteProperty(id) => ("/properties/" + id, Options(Some(DELETE), NoBody, map[]))
    case PendingProperties(page, limit) => ("/admin/properties/pending?" + PageQuery(page, limit), Options(None, NoBody, map[]))
    case AllProperties(status, page, limit) => ("/admin/properties/all" + FilteredPageQuery("status", status, page, limit), Options(None, NoBody, map[]))
    case Approve(id) => ("/admin/properties/" + id + "/approve", Options(Some(PUT), NoBody, map[]))
    case Reject(id, reason) => ("/admin/properties/" + id + "/reject", Options(Some(PUT), JsonBody(ReasonPayload(reason)), map[]))
    case ToggleFeatured(id) => ("/admin/properties/" + id + "/featured", Options(Some(PUT), NoBody, map[]))
    case Users(role, page, limit) => ("/admin/users" + FilteredPageQuery("role", role, page, limit), Options(None, NoBody, map[]))
    case ChangeUserRole(id, role) => ("/admin/users/" + id + "/role", Options(Some(PUT), JsonBody(RolePayload(role)), map[]))
    case Deactivate(id) => ("/admin/users/" + id + "/deactivate", Options(Some(PUT), NoBody, map[]))
    case Logs(page, limit) => ("/admin/logs?" + PageQuery(page, limit), Options(None, NoBody, map[]))
    case Stats => ("/admin/stats", Options(None, NoBody, map[]))
  }

  /** The request `apiCall` sends for an API function. */
  function RequestFor(base: string, call: ApiCall, token: Option<string>): Request {
    var (endpoint, options) := Route(call);
    PrepareRequest(base, endpoint, options, token)
  }

  /** Only listing create and update leave `Content-Type` to the browser; every
      other call declares JSON, and every call carries the token when one is stored. */
  lemma JsonUnlessUpload(base: string, call: ApiCall, token: Option<string>)
    ensures var req := RequestFor(base, call, token);
            && (ContentType in req.headers <==> !(call.CreateProperty? || call.UpdateProperty?))
            && (ContentType in req.headers ==> req.headers[ContentType] == JsonMime)
            && (Authorization in req.headers <==> token.Some? && token.value != "")
            && (Authorization in req.headers ==> req.headers[Authorization] == "Bearer " + token.value)
            && req.url[..|base|] == base
  {
  }

  /** `apiCall` end to end, with the network's answer as an input. */
  function Call<T>(base: string, call: ApiCall, token: Option<string>, network: Request -> Exchange<T>): (r: (Request, Result<T>))
    ensures r.0 == RequestFor(base, call, token)
    ensures r.1 == Interpret(network(r.0))
  {
    var req := RequestFor(base, call, token);
    (req, Interpret(network(req)))
  }
}

=== FILE: base.dfy ===
/** Option and Result values, and the JavaScript notion of a "truthy" string
    that the front-end uses everywhere it writes `a || b` or `if (!x)`. */
module Base {

  /** A value that may be missing (`null` or `undefined` in the front-end). */
  datatype Option<+T> = None | Some(value: T) {
    function GetOr(default: T): T {
      match this
      case Some(v) => v
      case None => default
    }
  }

  /** The outcome of an operation that can throw: `Err` carries the error message. */
  datatype Result<+T> = Ok(value: T) | Err(message: string) {
    predicate IsFailure() {
      Err?
    }

    function PropagateFailure<U>(): Result<U>
      requires Err?
    {
      Err(message)
    }

    function Extract(): T
      requires Ok?
    {
      value
    }
  }

  /** An optional string identifier such as `property.id` or `user._id`. */
  type Id = Option<string>

  /** `!!x` for an optional string: present and non-empty. */
  predicate Truthy(x: Id) {
    x.Some? && x.value != ""
  }

  /** `a || b` on optional strings. */
  function Or(a: Id, b: Id): (r: Id)
    ensures Truthy(a) ==> r == a
    ensures !Truthy(a) ==> r == b
    ensures Truthy(r) <==> Truthy(a) || Truthy(b)
  {
    if Truthy(a) then a else b
  }

  /** `x === s` where `x` may be undefined and `s` is a string. */
  predicate Is(x: Id, s: string) {
    x == Some(s)
  }
}

=== FILE: domain.dfy ===
/** The records the front-end passes around: users, listings and their
    duck-typed parts (a location is a string or an address object, an image is
    a URL or an upload record), plus the user-visible notifications. */
module Domain {
  import opened Base

  /** The role vocabulary the gates compare against; any other string is `OtherRole`. */
  datatype Role = Admin | Owner | Customer | OtherRole(name: string)

  /** A user record as returned by the API and stored as the session. */
  datatype User = User(id: Id, mongoId: Id, name: string, email: string, role: Role, isActive: bool)

  /** `location`: absent, a plain string, or an address object with optional fields. */
  datatype Location =
    | NoLocation
    | PlainLocation(text: string)
    | Address(address: Id, city: Id, state: Id, zipCode: Id, country: Id)

  /** `location?.city` */
  function CityOf(loc: Location): Id {
    if loc.Address? then loc.city else None
  }

  /** An image reference: a URL string or an uploaded-image record. */
  datatype Image = ImageUrl(url: string) | ImageRecord(url: string, publicId: Id)

  /** `image?.public_id` (a string image has none). */
  function PublicIdOf(image: Image): Id {
    if image.ImageRecord? then image.publicId else None
  }

  datatype PropertyKind = House | Apartment | Condo | Villa | Land

  function KindName(k: PropertyKind): string {
    match k
    case House => "house"
    case Apartment => "apartment"
    case Condo => "condo"
    case Villa => "villa"
    case Land => "land"
  }

  /** A listing; `id` is the sample-data key, `mongoId` the server's `_id`. */
  datatype Property = Property(
    id: Id, mongoId: Id, title: string, description: string, price: int,
    location: Location, kind: PropertyKind, bedrooms: int, bathrooms: int,
    area: int, images: seq<Image>, featured: bool)

  /** `p._id || p.id`: the key the dashboards match listings by. */
  function ServerKey(p: Property): Id {
    Or(p.mongoId, p.id)
  }

  /** `getLocationString` of both dashboards: the string itself, `"city, state"`
      when both are truthy, `"Location"` otherwise. */
  function DashboardLocationLabel(loc: Location): (shown: string)
    ensures loc.PlainLocation? ==> shown == loc.text
    ensures loc.Address? && Truthy(loc.city) && Truthy(loc.state) ==> shown == loc.city.value + ", " + loc.state.value
  {
    match loc
    case PlainLocation(s) => s
    case Address(_, city, state, _, _) =>
      if Truthy(city) && Truthy(state) then city.value + ", " + state.value else "Location"
    case NoLocation => "Location"
  }

  /** A structured or missing location falls back to `"Location"` exactly when
      city or state is missing, and its label is never empty. */
  lemma DashboardLocationFallback(loc: Location)
    requires !loc.PlainLocation?
    ensures DashboardLocationLabel(loc) == "Location" <==> !(Truthy(CityOf(loc)) && Truthy(loc.state))
    ensures DashboardLocationLabel(loc) != ""
  {
    if loc.Address? && Truthy(loc.city) && Truthy(loc.state) {
      var shown := DashboardLocationLabel(loc);
      assert shown[|loc.city.value|] == ',';
      assert ',' !in "Location";
    }
  }

  /** A toast notification shown after an action. */
  datatype Toast = Silent | Success(text: string) | Failure(text: string)

  /** What a request without an interesting reply value came back with:
      `Done`, or `Failed` with the thrown error's message. */
  datatype Outcome = Done | Failed(message: string)
}

=== FILE: email_pattern.dfy ===
/** The email test `/\S+@\S+\.\S+/.test(s)` shared by the login, registration
    and inquiry forms. The pattern is unanchored: it holds when SOME substring
    has the shape "non-space run, @, non-space run, dot, non-space run". */
module EmailPattern {
  import opened Text

  /** The pattern matches with its `@` at index `a` and its `.` at index `d`:
      a non-space before the `@`, at least one non-space between them, a
      non-space after the dot. */
  predicate MatchAt(s: string, a: int, d: int) {
    && 1 <= a && a + 2 <= d && d + 1 < |s|
    && s[a] == '@' && s[d] == '.'
    && !IsSpace(s[a - 1]) && !IsSpace(s[d + 1])
    && (forall k :: a < k < d ==> !IsSpace(s[k]))
  }

  /** `validateEmail(s)` */
  predicate ValidEmail(s: string) {
    exists a, d :: 0 <= a < d < |s| && MatchAt(s, a, d)
  }

  /** A single left-to-right pass deciding the pattern, tracking the current
      run of non-space characters, the first `@` inside it that has a
      character before it, and whether the previous character was a dot that
      closes a candidate match. */
  method ScanEmail(s: string) returns (found: bool)
    ensures found <==> ValidEmail(s)
  {
    var runStart := 0;
    var firstAt := -1;
    var dotReady := false;
    var i := 0;
    while i < |s|
      invariant 0 <= runStart <= i <= |s|
      invariant forall k :: runStart <= k < i ==> !IsSpace(s[k])
      invariant runStart > 0 ==> IsSpace(s[runStart - 1])
      invariant firstAt == -1 ==> forall a :: runStart < a < i ==> s[a] != '@'
      invariant firstAt != -1 ==> runStart < firstAt < i && s[firstAt] == '@'
      invariant firstAt != -1 ==> forall a :: runStart < a < firstAt ==> s[a] != '@'
      invariant dotReady <==> i >= 1 && runStart < i && s[i - 1] == '.' && firstAt != -1 && i - 1 >= firstAt + 2
      invariant forall a, d :: 0 <= a < d && d + 1 < i ==> !MatchAt(s, a, d)
    {
      if IsSpace(s[i]) {
        NoMatchEndingAtSpace(s, i);
        runStart, firstAt, dotReady := i + 1, -1, false;
      } else {
        if dotReady {
          assert MatchAt(s, firstAt, i - 1);
          return true;
        }
        NoMatchClosedHere(s, i, runStart, firstAt);
        if s[i] == '@' && i > runStart && firstAt == -1 {
          firstAt := i;
        }
        dotReady := s[i] == '.' && firstAt != -1 && i >= firstAt + 2;
      }
      i := i + 1;
    }
    return false;
  }

  /** A match needs a non-space right after its dot. */
  lemma NoMatchEndingAtSpace(s: string, i: int)
    requires 0 <= i < |s| && IsSpace(s[i])
    ensures forall a, d :: 0 <= a < d && d + 1 == i ==> !MatchAt(s, a, d)
  {
  }

  /** A match whose dot sits just before `i` lies inside the current run, so
      the run holds an `@` at or after the first one found, far enough from the dot. */
  lemma NoMatchClosedHere(s: string, i: int, runStart: int, firstAt: int)
    requires 0 <= runStart <= i < |s|
    requires forall k :: runStart <= k < i ==> !IsSpace(s[k])
    requires runStart > 0 ==> IsSpace(s[runStart - 1])
    requires firstAt == -1 ==> forall a :: runStart < a < i ==> s[a] != '@'
    requires firstAt != -1 ==> runStart < firstAt < i && s[firstAt] == '@'
    requires !(i >= 1 && runStart < i && s[i - 1] == '.' && firstAt != -1 && i - 1 >= firstAt + 2)
    requires firstAt != -1 ==> forall a :: runStart < a < firstAt ==> s[a] != '@'
    ensures forall a, d :: 0 <= a < d && d + 1 == i ==> !MatchAt(s, a, d)
  {
    forall a, d | 0 <= a < d && d + 1 == i
      ensures !MatchAt(s, a, d)
    {
      if a >= 1 && runStart > a - 1 {
        assert IsSpace(s[runStart - 1]);
        assert a - 1 <= runStart - 1 <= d;
      }
    }
  }

  /** The pattern is unanchored and needs a character between `@` and the dot:
      surrounding text is allowed, a dot right after the `@` or a missing dot is not. */
  lemma EmailExamples()
    ensures ValidEmail("agent@estate.com")
    ensures ValidEmail("mail me: a@b.c thanks")
    ensures !ValidEmail("a@.c")
    ensures !ValidEmail("agent@estate")
  {
    assert MatchAt("agent@estate.com", 5, 12);
    assert MatchAt("mail me: a@b.c thanks", 10, 12);
    forall a, d | 0 <= a < d < 4 ensures !MatchAt("a@.c", a, d) {
    }
    forall a, d | 0 <= a < d < 12 ensures !MatchAt("agent@estate", a, d) {
      assert "agent@estate"[d] != '.';
    }
  }
}

=== FILE: favorite_list.dfy ===
/** The list update performed by `toggleFavorite` (src/utils/localStorage.ts):
    remove the first occurrence of the id if there is one, otherwise append it. */
module FavoriteList {
  import opened Seqs

  /** `indexOf`, then `splice(index, 1)` or `push(id)`. */
  function Toggled(favs: seq<string>, id: string): (r: seq<string>)
    ensures id !in favs ==> r == favs + [id]
    ensures id in favs ==> |r| == |favs| - 1
  {
    var i := IndexOf(favs, id);
    if i > -1 then RemoveAt(favs, i) else favs + [id]
  }

  /** A present id loses exactly its first occurrence; everything before and after it stays put. */
  lemma ToggleRemovesFirstOccurrence(favs: seq<string>, id: string)
    requires id in favs
    ensures exists i :: 0 <= i < |favs| && favs[i] == id && id !in favs[..i]
                        && Toggled(favs, id) == favs[..i] + favs[i + 1..]
  {
    var i := IndexOf(favs, id);
    assert favs[i] == id && id !in favs[..i];
  }

  /** Every other id keeps its membership and its relative order. */
  lemma ToggleKeepsOthers(favs: seq<string>, id: string)
    ensures Without(Toggled(favs, id), id) == Without(favs, id)
    ensures forall x :: x != id ==> (x in Toggled(favs, id) <==> x in favs)
  {
    var r := Toggled(favs, id);
    var i := IndexOf(favs, id);
    if i > -1 {
      assert favs == favs[..i] + ([favs[i]] + favs[i + 1..]);
      WithoutConcat(favs[..i], [favs[i]] + favs[i + 1..], id);
      WithoutConcat([favs[i]], favs[i + 1..], id);
      WithoutConcat(favs[..i], favs[i + 1..], id);
      assert Without([favs[i]], id) == [];
    } else {
      WithoutConcat(favs, [id], id);
      assert Without([id], id) == [];
      assert Without(favs, id) + [] == Without(favs, id);
    }
    forall x | x != id
      ensures x in r <==> x in favs
    {
      if x in r {
        var k :| 0 <= k < |r| && r[k] == x;
      }
      if x in favs {
        var k :| 0 <= k < |favs| && favs[k] == x;
        assert favs[k] in Without(favs, id);
        assert x in Without(r, id);
        var j :| 0 <= j < |Without(r, id)| && Without(r, id)[j] == x;
      }
    }
  }

  /** The number of occurrences of the id goes down by one or up from zero to one. */
  lemma ToggleCount(favs: seq<string>, id: string)
    ensures id in favs ==> Count(Toggled(favs, id), id) == Count(favs, id) - 1
    ensures id !in favs ==> Count(Toggled(favs, id), id) == 1
  {
    if id in favs {
      var i := IndexOf(favs, id);
      assert Toggled(favs, id) == favs[..i] + favs[i + 1..];
      CountDropsAtFirst(favs, id, i);
    } else {
      CountSingle(id);
      CountConcat(favs, [id], id);
    }
  }

  lemma CountSingle(id: string)
    ensures Count([id], id) == 1
  {
    assert [id][1..] == [];
  }

  lemma CountDropsAtFirst(favs: seq<string>, id: string, i: int)
    requires 0 <= i < |favs| && favs[i] == id
    ensures Count(favs[..i] + favs[i + 1..], id) == Count(favs, id) - 1
  {
    var before, after := favs[..i], favs[i + 1..];
    assert favs == (before + [id]) + after;
    CountSingle(id);
    CountConcat(before + [id], after, id);
    CountConcat(before, [id], id);
    CountConcat(before, after, id);
  }

  /** On a duplicate-free list the toggle flips membership and keeps the list duplicate-free. */
  lemma ToggleFlipsMembership(favs: seq<string>, id: string)
    requires NoDup(favs)
    ensures id in Toggled(favs, id) <==> id !in favs
    ensures NoDup(Toggled(favs, id))
  {
    var r := Toggled(favs, id);
    ToggleCount(favs, id);
    NoDupCountAtMostOne(favs, id);
    var i := IndexOf(favs, id);
    if i > -1 {
      forall a, b | 0 <= a < b < |r|
        ensures r[a] != r[b]
      {
        var a' := if a < i then a else a + 1;
        var b' := if b < i then b else b + 1;
        assert r[a] == favs[a'] && r[b] == favs[b'];
      }
    } else {
      forall a, b | 0 <= a < b < |r|
        ensures r[a] != r[b]
      {
        if b == |favs| {
          assert r[b] == id;
          assert r[a] == favs[a];
        }
      }
    }
  }

  /** Toggling an absent id twice restores the exact list. */
  lemma ToggleTwiceAbsent(favs: seq<string>, id: string)
    requires id !in favs
    ensures Toggled(Toggled(favs, id), id) == favs
  {
    var once := favs + [id];
    assert IndexOf(once, id) == |favs| by {
      assert once[..|favs|] == favs;
    }
  }

  /** Toggling a present id twice (duplicate-free list) keeps the same ids but moves it to the end. */
  lemma ToggleTwicePresent(favs: seq<string>, id: string)
    requires NoDup(favs) && id in favs
    ensures Toggled(Toggled(favs, id), id) == Without(favs, id) + [id]
  {
    ToggleFlipsMembership(favs, id);
    ToggleKeepsOthers(favs, id);
    var once := Toggled(favs, id);
    WithoutAbsent(once, id);
  }

  /** The list after toggling each id of `ops` in turn. */
  function ToggleAll(favs: seq<string>, ops: seq<string>): seq<string>
    decreases |ops|
  {
    if |ops| == 0 then favs else ToggleAll(Toggled(favs, ops[0]), ops[1..])
  }

  lemma OddSuccessor(c: nat)
    ensures ((c + 1) % 2 == 1) == !(c % 2 == 1)
  {
  }

  /** One toggle of `y` on a duplicate-free list flips `x` exactly when `x == y`. */
  lemma ToggleStep(favs: seq<string>, y: string, x: string)
    requires NoDup(favs)
    ensures NoDup(Toggled(favs, y))
    ensures x in Toggled(favs, y) <==> ((x in favs) != (x == y))
  {
    ToggleFlipsMembership(favs, y);
    if x != y {
      ToggleKeepsOthers(favs, y);
    }
  }

  /** After any sequence of toggles from a duplicate-free list, an id is present
      exactly when it started present and was toggled an even number of times,
      or started absent and was toggled an odd number of times. */
  lemma {:induction false} ToggleParity(favs: seq<string>, ops: seq<string>, x: string)
    requires NoDup(favs)
    ensures NoDup(ToggleAll(favs, ops))
    ensures x in ToggleAll(favs, ops) <==> ((x in favs) != (Count(ops, x) % 2 == 1))
    decreases |ops|
  {
    if |ops| > 0 {
      var next := Toggled(favs, ops[0]);
      var c := Count(ops[1..], x);
      ToggleStep(favs, ops[0], x);
      ToggleParity(next, ops[1..], x);
      assert ToggleAll(favs, ops) == ToggleAll(next, ops[1..]);
      assert Count(ops, x) == (if ops[0] == x then c + 1 else c);
      OddSuccessor(c);
    }
  }
}

=== FILE: favorites_page.dfy ===
/** The favourites page (src/pages/FavoritesPage.tsx): the locally cached
    catalogue, seeded with the sample listings when empty, filtered to the
    listings whose sample id is among the stored favourites. The sample
    catalogue is a parameter. */
module FavoritesPage {
  import opened Base
  import opened Domain
  import opened Seqs
  import opened Storage
  import opened PropertyCard

  /** `properties.filter(p => favoriteIds.includes(p.id))` */
  function Favourited(catalogue: seq<Property>, favs: seq<string>): (r: seq<Property>)
    ensures IsSubsequence(r, catalogue)
    ensures forall k :: 0 <= k < |r| ==> Listed(favs, r[k].id) && r[k] in catalogue
    ensures forall k :: 0 <= k < |catalogue| && Listed(favs, catalogue[k].id) ==> catalogue[k] in r
    ensures forall q :: Count(r, q) == if Listed(favs, q.id) then Count(catalogue, q) else 0
  {
    FilterIsSubsequence(catalogue, (p: Property) => Listed(favs, p.id));
    forall q ensures Count(Filter(catalogue, (p: Property) => Listed(favs, p.id)), q)
                     == if Listed(favs, q.id) then Count(catalogue, q) else 0 {
      FilterCount(catalogue, (p: Property) => Listed(favs, p.id), q);
    }
    Filter(catalogue, (p: Property) => Listed(favs, p.id))
  }

  /** The storage listener: the same filter over what is stored, without seeding. */
  function Refresh(st: Store): (r: Result<seq<Property>>)
    ensures r.Ok? <==> GetProperties(st).Ok? && GetFavorites(st).Ok?
    ensures r.Ok? ==> r.value == Favourited(GetProperties(st).value, GetFavorites(st).value)
  {
    var catalogue :- GetProperties(st);
    var favs :- GetFavorites(st);
    Ok(Favourited(catalogue, favs))
  }

  /** The mount effect: seed an empty catalogue with the sample listings and save
      them, then filter. */
  function Load(st: Store, samples: seq<Property>): (r: Result<(Store, seq<Property>)>)
    ensures r.Ok? <==> GetProperties(st).Ok? && GetFavorites(st).Ok?
    ensures r.Ok? && |GetProperties(st).value| == 0 ==>
              r.value.0 == SaveProperties(st, samples) && r.value.1 == Favourited(samples, GetFavorites(st).value)
    ensures r.Ok? && |GetProperties(st).value| > 0 ==>
              r.value.0 == st && r.value.1 == Favourited(GetProperties(st).value, GetFavorites(st).value)
  {
    var stored :- GetProperties(st);
    var seeded := if |stored| == 0 then SaveProperties(st, samples) else st;
    var catalogue := if |stored| == 0 then samples else stored;
    var favs :- GetFavorites(seeded);
    Ok((seeded, Favourited(catalogue, favs)))
  }

  /** Loading is seeding followed by the listener's recomputation: what the page
      shows is always the filter of what is stored afterwards. */
  lemma LoadIsSeedThenRefresh(st: Store, samples: seq<Property>)
    requires Load(st, samples).Ok?
    ensures Refresh(Load(st, samples).value.0) == Ok(Load(st, samples).value.1)
  {
    CachesRoundTrip(st, samples, []);
  }

  /** Only `id` is matched: a listing without a sample id never shows, even when its
      server id is favourited (as the card does for such listings). */
  lemma ServerOnlyListingsNeverShown(catalogue: seq<Property>, favs: seq<string>, p: Property)
    requires p.id.None?
    ensures p !in Favourited(catalogue, favs)
  {
  }

  /** The counter's noun: singular exactly for one listing. */
  function SavedLabel(n: nat): (noun: string)
    ensures noun == "property" <==> n == 1
    ensures noun != "property" ==> noun == "properties"
  {
    if n == 1 then "property" else "properties"
  }
}

=== FILE: header.dfy ===
/** The navigation bar (src/components/Header.tsx): role-dependent links, the
    active-link test and logout. */
module Header {
  import opened Base
  import opened Domain
  import opened Storage

  datatype NavLink = NavLink(to: string, text: string)

  const HomeLink := NavLink("/", "Home")
  const PropertiesLink := NavLink("/properties", "Properties")
  const FavoritesLink := NavLink("/favorites", "Favorites")
  const MyPropertiesLink := NavLink("/dashboard", "My Properties")
  const AdminPanelLink := NavLink("/admin/dashboard", "Admin Panel")
  const BaseLinks := [HomeLink, PropertiesLink, FavoritesLink]

  predicate HasRole(user: Option<User>, r: Role) {
    user.Some? && user.value.role == r
  }

  /** `navLinks`: the three base links, then "My Properties" for owners and
      admins, then "Admin Panel" for admins. */
  function NavLinks(user: Option<User>): (links: seq<NavLink>)
    ensures 3 <= |links| <= 5 && links[..3] == BaseLinks
    ensures MyPropertiesLink in links <==> HasRole(user, Owner) || HasRole(user, Admin)
    ensures AdminPanelLink in links <==> HasRole(user, Admin)
    ensures HasRole(user, Admin) ==> links == BaseLinks + [MyPropertiesLink, AdminPanelLink]
    ensures HasRole(user, Owner) ==> links == BaseLinks + [MyPropertiesLink]
    ensures !HasRole(user, Owner) && !HasRole(user, Admin) ==> links == BaseLinks
  {
    var withDashboard := if HasRole(user, Owner) || HasRole(user, Admin) then BaseLinks + [MyPropertiesLink] else BaseLinks;
    if HasRole(user, Admin) then withDashboard + [AdminPanelLink] else withDashboard
  }

  /** `isActive(path)`: the current pathname equals the link target exactly. */
  predicate IsActive(pathname: string, path: string) {
    pathname == path
  }

  /** The link targets are distinct, so at most one link is highlighted. */
  lemma AtMostOneActive(user: Option<User>, pathname: string, i: int, j: int)
    requires 0 <= i < j < |NavLinks(user)|
    ensures !(IsActive(pathname, NavLinks(user)[i].to) && IsActive(pathname, NavLinks(user)[j].to))
  {
    var links := NavLinks(user);
    assert links[..3] == BaseLinks;
    assert forall k :: 3 <= k < |links| ==> links[k] == MyPropertiesLink || links[k] == AdminPanelLink;
    assert links[i].to != links[j].to;
  }

  /** `handleLogout`: clear the session entry and go to `/`. The token entry is
      not cleared. */
  function Logout(st: Store): (r: (Store, string))
    ensures GetCurrentUser(r.0) == Ok(None)
    ensures GetToken(r.0) == GetToken(st)
    ensures GetFavorites(r.0) == GetFavorites(st)
    ensures r.0.Keys == st.Keys - {UserKey} && forall k :: k in r.0 ==> r.0[k] == st[k]
    ensures r.1 == "/"
  {
    (ClearCurrentUser(st), "/")
  }
}

=== FILE: home_page.dfy ===
/** The home page (src/pages/HomePage.tsx): the search bar's fields become the
    listing page's URL, and the featured reply becomes the shown list. */
module HomePage {
  import opened Base
  import opened Domain
  import opened Seqs
  import opened Query
  import Responses
  import PropertiesPage

  /** The search bar's fields as it hands them over. */
  datatype SearchFields = SearchFields(location: Id, kind: Id, maxPrice: Id)

  /** What each query key should carry: `location` when non-empty, `type` and
      `maxPrice` when present and not "all", any other key nothing. */
  function SearchValue(f: SearchFields, key: string): Option<string> {
    if key == "location" then (if Truthy(f.location) then f.location else None)
    else if key == "type" then (if PropertiesPage.Selected(f.kind) then f.kind else None)
    else if key == "maxPrice" then (if PropertiesPage.Selected(f.maxPrice) then f.maxPrice else None)
    else None
  }

  /** The `set` calls of the search handler, in order. */
  function Compose(f: SearchFields): seq<Param> {
    var p1 := SetIf([], Truthy(f.location), "location", f.location.GetOr(""));
    var p2 := SetIf(p1, PropertiesPage.Selected(f.kind), "type", f.kind.GetOr(""));
    SetIf(p2, PropertiesPage.Selected(f.maxPrice), "maxPrice", f.maxPrice.GetOr(""))
  }

  lemma ComposeReads(f: SearchFields, key: string)
    ensures Get(Compose(f), key) == SearchValue(f, key)
    ensures PlainFields(f) ==> PlainParams(Compose(f))
  {
    var p1 := SetIf([], Truthy(f.location), "location", f.location.GetOr(""));
    var p2 := SetIf(p1, PropertiesPage.Selected(f.kind), "type", f.kind.GetOr(""));
    assert Plain("location") && Plain("type") && Plain("maxPrice") && Plain("");
    SetIfGet([], Truthy(f.location), "location", f.location.GetOr(""), key);
    SetIfGet(p1, PropertiesPage.Selected(f.kind), "type", f.kind.GetOr(""), key);
    SetIfGet(p2, PropertiesPage.Selected(f.maxPrice), "maxPrice", f.maxPrice.GetOr(""), key);
  }

  /** The search's query parameters: each key carries exactly what `SearchValue`
      prescribes, and the list is empty exactly when nothing is selected. */
  function SearchQuery(f: SearchFields): (ps: seq<Param>)
    ensures forall key :: Get(ps, key) == SearchValue(f, key)
    ensures |ps| == 0 <==> !Truthy(f.location) && !PropertiesPage.Selected(f.kind) && !PropertiesPage.Selected(f.maxPrice)
    ensures PlainFields(f) ==> PlainParams(ps)
  {
    ComposeEmpty(f);
    ComposeReads(f, "");
    assert forall key :: Get(Compose(f), key) == SearchValue(f, key) by {
      forall key ensures Get(Compose(f), key) == SearchValue(f, key) {
        ComposeReads(f, key);
      }
    }
    Compose(f)
  }

  lemma ComposeEmpty(f: SearchFields)
    ensures |Compose(f)| == 0 <==> !Truthy(f.location) && !PropertiesPage.Selected(f.kind) && !PropertiesPage.Selected(f.maxPrice)
  {
    var ps := Compose(f);
    ComposeReads(f, "location");
    ComposeReads(f, "type");
    ComposeReads(f, "maxPrice");
    if |ps| > 0 {
      ComposeReads(f, ps[0].key);
      assert Get(ps, ps[0].key).Some?;
    }
  }

  /** Where the search sends the browser: always `/properties?`, even with nothing selected. */
  function SearchTarget(f: SearchFields): (url: string)
    ensures |url| >= 12 && url[..12] == "/properties?"
    ensures url == "/properties?" <==> !Truthy(f.location) && !PropertiesPage.Selected(f.kind) && !PropertiesPage.Selected(f.maxPrice)
  {
    var q := Encode(SearchQuery(f));
    "/properties?" + q
  }

  /** Every field value the search can send is URL-safe. */
  predicate PlainFields(f: SearchFields) {
    (f.location.Some? ==> Plain(f.location.value))
    && (f.kind.Some? ==> Plain(f.kind.value))
    && (f.maxPrice.Some? ==> Plain(f.maxPrice.value))
  }

  /** A search from the home page reaches the listing API as the same filters:
      each request key carries what the search's fields prescribe. */
  lemma SearchReachesApi(f: SearchFields, sortBy: string)
    requires PlainFields(f)
    ensures var api := PropertiesPage.ApiParams(Decode(Encode(SearchQuery(f))), sortBy);
            forall key :: Get(api, key) ==
              PropertiesPage.ApiValue(SearchValue(f, "location"), SearchValue(f, "type"), SearchValue(f, "maxPrice"), sortBy, key)
  {
    var url := Decode(Encode(SearchQuery(f)));
    FieldsSurvive(f, "location");
    FieldsSurvive(f, "type");
    FieldsSurvive(f, "maxPrice");
    forall key
      ensures Get(PropertiesPage.ApiParams(url, sortBy), key) ==
              PropertiesPage.ApiValue(SearchValue(f, "location"), SearchValue(f, "type"), SearchValue(f, "maxPrice"), sortBy, key)
    {
      PropertiesPage.ApiParamsRead(url, sortBy, key);
    }
  }

  /** The search's parameters read back from the URL it produces. */
  lemma FieldsSurvive(f: SearchFields, key: string)
    requires PlainFields(f)
    ensures Get(Decode(Encode(SearchQuery(f))), key) == SearchValue(f, key)
  {
    QueryRoundTrip(f);
  }

  lemma QueryRoundTrip(f: SearchFields)
    requires PlainFields(f)
    ensures Decode(Encode(SearchQuery(f))) == SearchQuery(f)
  {
    DecodeEncode(SearchQuery(f));
  }

  /** Spelled out: the location arrives as `city`, the type as `type`, the price
      as a number, then the sort order, and no other key is sent. */
  lemma SearchValuesAsApiValues(f: SearchFields, sortBy: string, key: string)
    ensures var v := PropertiesPage.ApiValue(SearchValue(f, "location"), SearchValue(f, "type"), SearchValue(f, "maxPrice"), sortBy, key);
            && (key == "city" ==> v == (if Truthy(f.location) then f.location else None))
            && (key == "type" ==> v == (if PropertiesPage.Selected(f.kind) then f.kind else None))
            && (key == "maxPrice" ==> v == (if PropertiesPage.Selected(f.maxPrice) then Some(PropertiesPage.PriceText(f.maxPrice.value)) else None))
            && (key == "sortBy" ==> v == Some(sortBy))
            && (key !in PropertiesPage.ApiKeys ==> v == None)
  {
  }

  /** The featured list: `properties || response || []`, and `[]` when the request fails. */
  function Featured(reply: Result<Responses.Payload<Property>>): (r: Option<seq<Property>>)
    ensures reply.Err? ==> r == Some([])
    ensures reply.Ok? ==> r == Responses.ListOf(reply.value)
  {
    Responses.ListOrEmpty(reply)
  }
}

=== FILE: login.dfy ===
/** The login and registration forms (src/pages/LoginPage.tsx): client-side
    checks in their fixed order, what a login reply does to storage and
    navigation, and what a registration reply does to the form. */
module Login {
  import opened Base
  import opened Domain
  import opened Storage
  import opened EmailPattern
  import opened Text
  import Api
  import RouteGate

  const FillAllFields := "Please fill in all fields"
  const InvalidEmailText := "Please enter a valid email address"
  const ShortPasswordText := "Password must be at least 6 characters long"
  const MismatchText := "Passwords do not match"
  const LoginFailedText := "Login failed. Please try again."
  const AccountCreatedText := "Account created successfully! Please log in."
  const MinPasswordLength := 6

  /** A client-side check: pass, or stop with the toast text. */
  datatype Check = Pass | Reject(message: string)

  /** `handleLogin`'s checks: both fields filled, then the email pattern. */
  function CheckLogin(email: string, password: string): (c: Check)
    ensures c.Pass? <==> email != "" && password != "" && ValidEmail(email)
    ensures (email == "" || password == "") ==> c == Reject(FillAllFields)
    ensures email != "" && password != "" && !ValidEmail(email) ==> c == Reject(InvalidEmailText)
  {
    if email == "" || password == "" then Reject(FillAllFields)
    else if !ValidEmail(email) then Reject(InvalidEmailText)
    else Pass
  }

  datatype RegisterForm = RegisterForm(name: string, email: string, password: string, confirmPassword: string, role: Role)

  /** `handleRegister`'s checks, first failure wins: all four fields filled,
      valid email, password of at least six UTF-16 code units (`password.length`),
      confirmation equal. */
  function CheckRegistration(f: RegisterForm): (c: Check)
    ensures c.Pass? <==> f.name != "" && f.email != "" && f.password != "" && f.confirmPassword != ""
                         && ValidEmail(f.email) && Utf16Length(f.password) >= MinPasswordLength && f.password == f.confirmPassword
    ensures c == Reject(FillAllFields) <==> f.name == "" || f.email == "" || f.password == "" || f.confirmPassword == ""
    ensures c == Reject(InvalidEmailText) <==>
              f.name != "" && f.email != "" && f.password != "" && f.confirmPassword != "" && !ValidEmail(f.email)
    ensures c == Reject(ShortPasswordText) <==>
              f.name != "" && f.email != "" && f.password != "" && f.confirmPassword != "" && ValidEmail(f.email)
              && Utf16Length(f.password) < MinPasswordLength
    ensures c == Reject(MismatchText) <==>
              f.name != "" && f.email != "" && f.password != "" && f.confirmPassword != "" && ValidEmail(f.email)
              && Utf16Length(f.password) >= MinPasswordLength && f.password != f.confirmPassword
  {
    if f.name == "" || f.email == "" || f.password == "" || f.confirmPassword == "" then Reject(FillAllFields)
    else if !ValidEmail(f.email) then Reject(InvalidEmailText)
    else if Utf16Length(f.password) < MinPasswordLength then Reject(ShortPasswordText)
    else if f.password != f.confirmPassword then Reject(MismatchText)
    else Pass
  }

  /** The fields of the login reply the page reads. */
  datatype LoginReply = LoginReply(success: bool, token: Id, user: Option<User>, message: Id)

  /** What submitting the login form does: the store afterwards, the request
      issued (if any), where the page navigates (if anywhere), and the toast. */
  datatype LoginResult = LoginResult(store: Store, request: Option<Api.ApiCall>, navigateTo: Option<string>, toast: Toast)

  /** Where a fresh session goes: admins to the admin console, owners to their dashboard, anyone else home. */
  function PostLoginRoute(role: Role): (path: string)
    ensures role == Admin <==> path == "/admin/dashboard"
    ensures role == Owner <==> path == "/dashboard"
    ensures role != Admin && role != Owner <==> path == "/"
  {
    if role == Admin then "/admin/dashboard" else if role == Owner then "/dashboard" else "/"
  }

  /** `handleLogin`, with the reply of `authAPI.login` (or its thrown error) as input. */
  function HandleLogin(st: Store, email: string, password: string, reply: Result<LoginReply>): (r: LoginResult)
    ensures r.request.Some? <==> CheckLogin(email, password).Pass?
    ensures r.request.Some? ==> r.request.value == Api.Login(Api.Credentials(email, password))
    ensures CheckLogin(email, password).Reject? ==> r == LoginResult(st, None, None, Failure(CheckLogin(email, password).message))
    ensures r.store != st ==> r.navigateTo.Some?
    ensures r.navigateTo.Some? <==>
              && CheckLogin(email, password).Pass? && reply.Ok?
              && reply.value.success && Truthy(reply.value.token) && reply.value.user.Some?
    ensures r.navigateTo.Some? ==>
              && GetCurrentUser(r.store) == Ok(reply.value.user)
              && GetToken(r.store) == reply.value.token
              && GetFavorites(r.store) == GetFavorites(st)
              && r.navigateTo.value == PostLoginRoute(reply.value.user.value.role)
    ensures r.request.Some? && reply.Ok? && r.navigateTo.None? ==>
              r.toast == Failure(if Truthy(reply.value.message) then reply.value.message.value else LoginFailedText)
    ensures r.request.Some? && reply.Err? ==> r.store == st && r.toast == Failure(reply.message)
  {
    match CheckLogin(email, password)
    case Reject(m) => LoginResult(st, None, None, Failure(m))
    case Pass =>
      var request := Some(Api.Login(Api.Credentials(email, password)));
      match reply
      case Err(m) => LoginResult(st, request, None, Failure(m))
      case Ok(res) =>
        if res.success && Truthy(res.token) && res.user.Some? then
          var u := res.user.value;
          // the page re-spells the role, mapping "owner" to "owner" and anything else to itself
          var userWithRole := u.(role := if u.role == Owner then Owner else u.role);
          var saved := SaveCurrentUser(SaveToken(st, res.token.value), userWithRole);
          LoginResult(saved, request, Some(PostLoginRoute(u.role)), Success("Welcome back, " + u.name + "!"))
        else
          LoginResult(st, request, None, Failure(if Truthy(res.message) then res.message.value else LoginFailedText))
  }

  /** A fresh session always lands on a page whose route gate renders for it. */
  lemma LoginLandsOnAdmittedPage(u: User)
    ensures RouteGate.ProtectedRoute(RouteGate.Found(u), RouteGate.RouteRoles(PostLoginRoute(u.role))) == RouteGate.Render
  {
  }

  /** The roles the registration form offers. */
  const SelectableRoles: seq<Role> := [Customer, Owner]

  /** The form after a successful registration. */
  const BlankRegistration := RegisterForm("", "", "", "", Customer)

  datatype RegisterReply = RegisterReply(success: bool)

  datatype RegisterResult = RegisterResult(form: RegisterForm, request: Option<Api.ApiCall>, toast: Toast)

  /** `handleRegister`, with the reply of `authAPI.register` (or its thrown error) as input. */
  function HandleRegister(f: RegisterForm, reply: Result<RegisterReply>): (r: RegisterResult)
    ensures r.request.Some? <==> CheckRegistration(f).Pass?
    ensures r.request.Some? ==>
              r.request.value == Api.Register(Api.Registration(f.name, f.email, f.password, f.confirmPassword, f.role))
    ensures r.form != f ==> r.form == BlankRegistration && r.toast == Success(AccountCreatedText)
    ensures r.form == BlankRegistration && f != BlankRegistration ==> r.request.Some? && reply == Ok(RegisterReply(true))
    ensures r.request.None? ==> r.form == f && r.toast == Failure(CheckRegistration(f).message)
    ensures r.request.Some? && reply.Err? ==> r.form == f && r.toast == Failure(reply.message)
    ensures r.request.Some? && reply == Ok(RegisterReply(true)) ==>
              r.form == BlankRegistration && r.toast == Success(AccountCreatedText)
    ensures r.request.Some? && reply == Ok(RegisterReply(false)) ==> r.form == f && r.toast == Silent
  {
    match CheckRegistration(f)
    case Reject(m) => RegisterResult(f, None, Failure(m))
    case Pass =>
      var request := Some(Api.Register(Api.Registration(f.name, f.email, f.password, f.confirmPassword, f.role)));
      match reply
      case Err(m) => RegisterResult(f, request, Failure(m))
      case Ok(res) =>
        if res.success then RegisterResult(BlankRegistration, request, Success(AccountCreatedText))
        else RegisterResult(f, request, Silent)
  }

  /** The reset form offers a selectable role, and no selectable role opens the admin console. */
  lemma RegistrationRoles()
    ensures BlankRegistration.role in SelectableRoles
    ensures Admin !in SelectableRoles
  {
  }

  /** A five-character password with every other field valid is refused before any request. */
  lemma ShortPasswordRefused(reply: Result<RegisterReply>)
    ensures var f := RegisterForm("Sarah", "agent@estate.com", "abcde", "abcde", Customer);
            HandleRegister(f, reply) == RegisterResult(f, None, Failure(ShortPasswordText))
  {
    assert MatchAt("agent@estate.com", 5, 12);
  }

  /** `password.length` counts code units: three astral characters make six,
      so such a password passes the length check. */
  lemma AstralPasswordLongEnough()
    ensures var pw := "\U{1F600}\U{1F600}\U{1F600}";
            && |pw| == 3
            && CheckRegistration(RegisterForm("a", "a@b.c", pw, pw, Customer)) == Pass
  {
    var pw := "\U{1F600}\U{1F600}\U{1F600}";
    assert Utf16Length(pw[2..]) == 2;
    assert Utf16Length(pw[1..]) == 4;
    assert MatchAt("a@b.c", 1, 3);
  }

  /** The owner-login scenario: session and token saved, then the owner dashboard. */
  lemma OwnerLoginScenario(st: Store)
    ensures var u := User(Some("u1"), None, "Sarah", "", Owner, true);
            var r := HandleLogin(st, "agent@estate.com", "password123", Ok(LoginReply(true, Some("abc"), Some(u), None)));
            && GetCurrentUser(r.store) == Ok(Some(u))
            && GetToken(r.store) == Some("abc")
            && r.navigateTo == Some("/dashboard")
  {
    assert MatchAt("agent@estate.com", 5, 12);
    assert CheckLogin("agent@estate.com", "password123") == Pass;
  }
}

=== FILE: owner_dashboard.dfy ===
/** The owner dashboard (src/pages/DashboardPage.tsx): its entry check, the
    listing form's image lists, the multipart body a submit sends, and what
    create, update, edit and delete do to the owner's listing list. Replies
    of the requests are inputs. */
module OwnerDashboard {
  import opened Base
  import opened Text
  import opened Domain
  import opened Seqs
  import opened Query
  import Api
  import RouteGate

  const MaxImages := 10
  const TooManyImagesText := "Maximum 10 images allowed"
  const RequiredFieldsText := "Please fill in all required fields"
  const UpdatedText := "Property updated successfully"
  const CreatedText := "Property submitted for approval! You'll be notified when the admin reviews it."
  const DeletedText := "Property deleted successfully"

  /** `propertiesAPI.getAll({ ownerId })` with `ownerId = _id || id`; a missing id is sent as the text "undefined". */
  function OwnerQuery(u: User): (ps: seq<Param>)
    ensures |ps| == 1 && ps[0].key == "ownerId"
    ensures Truthy(u.mongoId) ==> ps[0].value == u.mongoId.value
    ensures !Truthy(u.mongoId) && u.id.Some? ==> ps[0].value == u.id.value
  {
    var owner := Or(u.mongoId, u.id);
    [Param("ownerId", if owner.Some? then owner.value else "undefined")]
  }

  /** Entry: only owners and admins stay; they request their own listings. */
  function Open(session: Option<User>): (r: (RouteGate.PageEntry, seq<Api.ApiCall>))
    ensures r.0.Proceed? <==> session.Some? && (session.value.role == Owner || session.value.role == Admin)
    ensures !r.0.Proceed? ==> r.0 == RouteGate.LeaveFor(RouteGate.LoginPath) && r.1 == []
    ensures r.0.Proceed? ==> r.1 == [Api.ListProperties(OwnerQuery(session.value))]
  {
    var entry := RouteGate.PageGate(session, RouteGate.DashboardRoles);
    (entry, if entry.Proceed? then [Api.ListProperties(OwnerQuery(session.value))] else [])
  }

  /** The listing form's fields. */
  datatype ListingForm = ListingForm(
    title: string, description: string, price: int, location: Location, kind: PropertyKind,
    bedrooms: int, bathrooms: int, area: int, images: seq<Image>)

  const BlankListing := ListingForm("", "", 0, Address(Some(""), Some(""), Some(""), Some(""), Some("US")), House, 0, 0, 0, [])

  /** The page state: the owner's listings, the form, newly chosen files, the
      listing's existing images, the upload ids queued for deletion, and which
      listing (if any) is being edited. */
  datatype OwnerState = OwnerState(
    properties: seq<Property>, form: ListingForm, files: seq<Api.File>, existing: seq<Image>,
    toDelete: seq<string>, editingId: Id, showForm: bool)

  datatype Step = Step(state: OwnerState, request: Option<Api.ApiCall>, toast: Toast)

  /** `resetForm()`: the listing list is the only thing kept. */
  function Reset(st: OwnerState): (r: OwnerState)
    ensures r.properties == st.properties
    ensures r.form == BlankListing && r.files == [] && r.existing == [] && r.toDelete == []
    ensures r.editingId == None && !r.showForm
  {
    OwnerState(st.properties, BlankListing, [], [], [], None, false)
  }

  /** `handleImageChange`: refuses a batch that would take the new files past ten;
      the listing's existing images do not count. */
  function AddImages(st: OwnerState, files: seq<Api.File>): (r: (OwnerState, Toast))
    ensures |st.files| + |files| > MaxImages ==> r == (st, Failure(TooManyImagesText))
    ensures |st.files| + |files| <= MaxImages ==> r == (st.(files := st.files + files), Silent)
    ensures |r.0.files| <= MaxImages || r.0 == st
  {
    if |files| + |st.files| > MaxImages then (st, Failure(TooManyImagesText))
    else (st.(files := st.files + files), Silent)
  }

  /** Starting from at most ten new files, no sequence of additions gets past ten. */
  lemma {:induction false} AddImagesBounded(st: OwnerState, batches: seq<seq<Api.File>>)
    requires |st.files| <= MaxImages
    ensures |AddAll(st, batches).files| <= MaxImages
    ensures AddAll(st, batches).existing == st.existing
    decreases |batches|
  {
    if |batches| > 0 {
      AddImagesBounded(AddImages(st, batches[0]).0, batches[1..]);
    }
  }

  /** The state after each batch is offered in turn. */
  function AddAll(st: OwnerState, batches: seq<seq<Api.File>>): OwnerState
    decreases |batches|
  {
    if |batches| == 0 then st else AddAll(AddImages(st, batches[0]).0, batches[1..])
  }

  /** `removeImage(index)`: drops that existing image and queues its upload id, if it has one. */
  function RemoveImage(st: OwnerState, index: int): (r: OwnerState)
    ensures r.existing == RemoveAt(st.existing, index)
    ensures 0 <= index < |st.existing| && Truthy(PublicIdOf(st.existing[index])) ==>
              r.toDelete == st.toDelete + [PublicIdOf(st.existing[index]).value]
    ensures !(0 <= index < |st.existing| && Truthy(PublicIdOf(st.existing[index]))) ==> r.toDelete == st.toDelete
    ensures r.(existing := st.existing, toDelete := st.toDelete) == st
  {
    var queued :=
      if 0 <= index < |st.existing| && Truthy(PublicIdOf(st.existing[index]))
      then st.toDelete + [PublicIdOf(st.existing[index]).value]
      else st.toDelete;
    st.(existing := RemoveAt(st.existing, index), toDelete := queued)
  }

  /** `removeNewImage(index)`: drops that new file. */
  function RemoveNewImage(st: OwnerState, index: int): (r: OwnerState)
    ensures 0 <= index < |st.files| ==> |r.files| == |st.files| - 1
    ensures 0 <= index < |st.files| ==> r.files == st.files[..index] + st.files[index + 1..]
    ensures !(0 <= index < |st.files|) ==> r == st
    ensures r.(files := st.files) == st
  {
    st.(files := RemoveAt(st.files, index))
  }

  /** The required-field check: title, description, the location's city, price and area all truthy. */
  predicate Complete(f: ListingForm) {
    f.title != "" && f.description != "" && Truthy(CityOf(f.location)) && f.price != 0 && f.area != 0
  }

  /** The fixed fields of the multipart body, in the order they are appended. */
  function FieldEntries(f: ListingForm): seq<Api.FormEntry> {
    [ Api.FormEntry("title", Api.FormText(f.title)),
      Api.FormEntry("description", Api.FormText(f.description)),
      Api.FormEntry("price", Api.FormText(IntToString(f.price))),
      Api.FormEntry("type", Api.FormText(KindName(f.kind))),
      Api.FormEntry("bedrooms", Api.FormText(IntToString(f.bedrooms))),
      Api.FormEntry("bathrooms", Api.FormText(IntToString(f.bathrooms))),
      Api.FormEntry("area", Api.FormText(IntToString(f.area))),
      Api.FormEntry("location", Api.FormLocation(f.location)) ]
  }

  function FileEntry(file: Api.File): Api.FormEntry {
    Api.FormEntry("images", Api.FormFile(file))
  }

  /** The multipart body of a submit: the form's fields, the deletion queue when it
      is non-empty, then one `images` entry per new file. */
  function SubmitEntries(f: ListingForm, toDelete: seq<string>, files: seq<Api.File>): (es: seq<Api.FormEntry>)
    ensures |es| == 8 + (if |toDelete| > 0 then 1 else 0) + |files|
    ensures es[..8] == FieldEntries(f)
  {
    FieldEntries(f)
    + (if |toDelete| > 0 then [Api.FormEntry("imagesToDelete", Api.FormIdList(toDelete))] else [])
    + Map(files, FileEntry)
  }

  /** The files a server reads from the `images` entries of a body, in order. */
  function UploadedFiles(es: seq<Api.FormEntry>): seq<Api.File> {
    if |es| == 0 then []
    else (if es[0].name == "images" && es[0].value.FormFile? then [es[0].value.file] else []) + UploadedFiles(es[1..])
  }

  /** The upload ids a server reads from the `imagesToDelete` entries of a body. */
  function DeletionIds(es: seq<Api.FormEntry>): seq<string> {
    if |es| == 0 then []
    else (if es[0].name == "imagesToDelete" && es[0].value.FormIdList? then es[0].value.ids else []) + DeletionIds(es[1..])
  }

  lemma {:induction false} UploadedFilesConcat(a: seq<Api.FormEntry>, b: seq<Api.FormEntry>)
    ensures UploadedFiles(a + b) == UploadedFiles(a) + UploadedFiles(b)
    ensures DeletionIds(a + b) == DeletionIds(a) + DeletionIds(b)
  {
    if |a| > 0 {
      assert (a + b)[1..] == a[1..] + b;
      UploadedFilesConcat(a[1..], b);
    } else {
      assert a + b == b;
    }
  }

  lemma {:induction false} FileEntriesCarryFiles(files: seq<Api.File>)
    ensures UploadedFiles(Map(files, FileEntry)) == files
    ensures DeletionIds(Map(files, FileEntry)) == []
  {
    if |files| > 0 {
      assert Map(files, FileEntry) == [FileEntry(files[0])] + Map(files[1..], FileEntry);
      UploadedFilesConcat([FileEntry(files[0])], Map(files[1..], FileEntry));
      FileEntriesCarryFiles(files[1..]);
    }
  }

  /** Entries named neither `images` nor `imagesToDelete` carry no files and no deletions. */
  lemma {:induction false} OtherEntriesCarryNothing(es: seq<Api.FormEntry>)
    requires forall k :: 0 <= k < |es| ==> es[k].name != "images" && es[k].name != "imagesToDelete"
    ensures UploadedFiles(es) == [] && DeletionIds(es) == []
  {
    if |es| > 0 {
      OtherEntriesCarryNothing(es[1..]);
    }
  }

  /** The body carries exactly the new files, in order, and exactly the queued
      deletions: an empty queue sends no deletion entry at all. */
  lemma SubmitBodyCarriesImages(f: ListingForm, toDelete: seq<string>, files: seq<Api.File>)
    ensures UploadedFiles(SubmitEntries(f, toDelete, files)) == files
    ensures DeletionIds(SubmitEntries(f, toDelete, files)) == toDelete
    ensures (exists k :: 0 <= k < |SubmitEntries(f, toDelete, files)| && SubmitEntries(f, toDelete, files)[k].name == "imagesToDelete")
            <==> |toDelete| > 0
  {
    SubmitBodyReadsBack(f, toDelete, files);
    var es := SubmitEntries(f, toDelete, files);
    if |toDelete| > 0 {
      assert es[8].name == "imagesToDelete";
    } else {
      NoDeletionEntry(f, files);
    }
  }

  lemma SubmitBodyReadsBack(f: ListingForm, toDelete: seq<string>, files: seq<Api.File>)
    ensures UploadedFiles(SubmitEntries(f, toDelete, files)) == files
    ensures DeletionIds(SubmitEntries(f, toDelete, files)) == toDelete
  {
    var fields := FieldEntries(f);
    var del := if |toDelete| > 0 then [Api.FormEntry("imagesToDelete", Api.FormIdList(toDelete))] else [];
    var uploads := Map(files, FileEntry);
    var es := SubmitEntries(f, toDelete, files);
    assert es == (fields + del) + uploads;
    assert UploadedFiles(fields + del) == [] && DeletionIds(fields + del) == toDelete by {
      UploadedFilesConcat(fields, del);
      OtherEntriesCarryNothing(fields);
      assert UploadedFiles(del) == [];
      if |toDelete| > 0 {
        assert DeletionIds(del) == toDelete + DeletionIds([]);
      }
    }
    assert UploadedFiles(uploads) == files && DeletionIds(uploads) == [] by {
      FileEntriesCarryFiles(files);
    }
    UploadedFilesConcat(fields + del, uploads);
  }

  lemma NoDeletionEntry(f: ListingForm, files: seq<Api.File>)
    ensures forall k :: 0 <= k < |SubmitEntries(f, [], files)| ==> SubmitEntries(f, [], files)[k].name != "imagesToDelete"
  {
    var es := SubmitEntries(f, [], files);
    var uploads := Map(files, FileEntry);
    assert es == FieldEntries(f) + uploads;
    forall k | 0 <= k < |es| ensures es[k].name != "imagesToDelete" {
      if k >= 8 {
        assert es[k] == uploads[k - 8];
      }
    }
  }

  /** Listings keyed by the id (`_id === id || id === id`) replaced by the server's copy. */
  function Replaced(properties: seq<Property>, id: string, updated: Property): (r: seq<Property>)
    ensures |r| == |properties|
    ensures forall k :: 0 <= k < |properties| ==>
              r[k] == (if Is(properties[k].mongoId, id) || Is(properties[k].id, id) then updated else properties[k])
  {
    Map(properties, (p: Property) => if Is(p.mongoId, id) || Is(p.id, id) then updated else p)
  }

  /** `handleSubmit`, with the listing the server returns (or its error) as input. */
  function Submit(st: OwnerState, reply: Result<Property>): (r: Step)
    ensures r.request.None? <==> !Complete(st.form)
    ensures r.request.None? ==> r.state == st && r.toast == Failure(RequiredFieldsText)
    ensures r.request.Some? && Truthy(st.editingId) ==>
              r.request.value == Api.UpdateProperty(st.editingId.value, SubmitEntries(st.form, st.toDelete, st.files))
    ensures r.request.Some? && !Truthy(st.editingId) ==>
              r.request.value == Api.CreateProperty(SubmitEntries(st.form, st.toDelete, st.files))
    ensures r.request.Some? && reply.Ok? && Truthy(st.editingId) ==>
              r.state == Reset(st).(properties := Replaced(st.properties, st.editingId.value, reply.value))
    ensures r.request.Some? && reply.Ok? && !Truthy(st.editingId) ==>
              r.state == Reset(st).(properties := st.properties + [reply.value])
    ensures r.request.Some? && reply.Ok? ==> r.toast == Success(if Truthy(st.editingId) then UpdatedText else CreatedText)
    ensures reply.Err? ==> r.state == st
    ensures r.request.Some? && reply.Err? ==> r.toast == Failure(reply.message)
  {
    if !Complete(st.form) then Step(st, None, Failure(RequiredFieldsText))
    else
      var body := SubmitEntries(st.form, st.toDelete, st.files);
      if Truthy(st.editingId) then
        var id := st.editingId.value;
        var request := Some(Api.UpdateProperty(id, body));
        match reply
        case Ok(updated) => Step(Reset(st).(properties := Replaced(st.properties, id, updated)), request, Success(UpdatedText))
        case Err(m) => Step(st, request, Failure(m))
      else
        var request := Some(Api.CreateProperty(body));
        match reply
        case Ok(created) => Step(Reset(st).(properties := st.properties + [created]), request, Success(CreatedText))
        case Err(m) => Step(st, request, Failure(m))
  }

  /** The location the edit form starts from: a plain string becomes the street
      address of an otherwise empty US address. */
  function EditLocation(loc: Location): (r: Location)
    ensures loc.PlainLocation? ==> r == Address(Some(loc.text), Some(""), Some(""), Some(""), Some("US"))
    ensures !loc.PlainLocation? ==> r == loc
    ensures !Truthy(CityOf(r)) <==> loc.PlainLocation? || !Truthy(CityOf(loc))
  {
    if loc.PlainLocation? then Address(Some(loc.text), Some(""), Some(""), Some(""), Some("US")) else loc
  }

  /** `handleEdit(property)` */
  function Edit(st: OwnerState, p: Property): (r: OwnerState)
    ensures r.properties == st.properties
    ensures r.existing == p.images && r.files == [] && r.toDelete == []
    ensures r.editingId == ServerKey(p) && r.showForm
    ensures r.form == ListingForm(p.title, p.description, p.price, EditLocation(p.location), p.kind,
                                  p.bedrooms, p.bathrooms, p.area, p.images)
  {
    var form := ListingForm(p.title, p.description, p.price, EditLocation(p.location), p.kind,
                            p.bedrooms, p.bathrooms, p.area, p.images);
    OwnerState(st.properties, form, [], p.images, [], ServerKey(p), true)
  }

  /** Editing a listing whose location is a plain string and submitting the form
      unchanged is refused by the city check, and nothing is sent. */
  lemma PlainLocationCannotBeResubmitted(st: OwnerState, p: Property, reply: Result<Property>)
    requires p.location.PlainLocation?
    ensures Submit(Edit(st, p), reply) == Step(Edit(st, p), None, Failure(RequiredFieldsText))
  {
  }

  /** `handleDelete(id)`, with the confirmation dialog's answer as an input. */
  function Delete(st: OwnerState, id: string, confirmed: bool, reply: Outcome): (r: Step)
    ensures !confirmed ==> r == Step(st, None, Silent)
    ensures confirmed ==> r.request == Some(Api.DeleteProperty(id))
    ensures confirmed && reply.Done? ==>
              && r.state == st.(properties := r.state.properties)
              && IsSubsequence(r.state.properties, st.properties)
              && (forall k :: 0 <= k < |r.state.properties| ==> !Is(ServerKey(r.state.properties[k]), id))
              && (forall k :: 0 <= k < |st.properties| && !Is(ServerKey(st.properties[k]), id) ==> st.properties[k] in r.state.properties)
              && r.toast == Success(DeletedText)
    ensures confirmed && reply.Done? ==>
              forall q :: Count(r.state.properties, q) == if Is(ServerKey(q), id) then 0 else Count(st.properties, q)
    ensures confirmed && reply.Failed? ==> r == Step(st, Some(Api.DeleteProperty(id)), Failure(reply.message))
  {
    if !confirmed then Step(st, None, Silent)
    else
      var request := Some(Api.DeleteProperty(id));
      match reply
      case Done =>
        var keep := (p: Property) => !Is(ServerKey(p), id);
        FilterIsSubsequence(st.properties, keep);
        assert forall q :: Count(Filter(st.properties, keep), q) == if Is(ServerKey(q), id) then 0 else Count(st.properties, q) by {
          forall q {
            FilterCount(st.properties, keep, q);
          }
        }
        Step(st.(properties := Filter(st.properties, keep)), request, Success(DeletedText))
      case Failed(m) => Step(st, request, Failure(m))
  }
}

=== FILE: properties_page.dfy ===
/** The listing search page (src/pages/PropertiesPage.tsx): how the URL's
    search parameters become the parameters of `propertiesAPI.getAll`, and how
    the reply becomes the shown list. */
module PropertiesPage {
  import opened Base
  import opened Text
  import opened Domain
  import opened Seqs
  import opened Query
  import Responses

  const DefaultSort := "-createdAt"

  /** A filter value the page forwards: present, non-empty, and not "all". */
  predicate Selected(x: Option<string>) {
    x.Some? && x.value != "" && x.value != "all"
  }

  /** `String(parseInt(s))`: the decimal integer `s` starts with, or "NaN". */
  function PriceText(s: string): (t: string)
    ensures ParseInt(s).None? <==> t == "NaN"
    ensures ParseInt(s).Some? ==> ParseInt(t) == ParseInt(s)
  {
    match ParseInt(s)
    case Some(n) =>
      ParseIntOfIntToString(n);
      IntToString(n)
    case None => "NaN"
  }

  /** The filter controls the page fills from the URL, and the sort order it sends. */
  datatype Controls = Controls(searchTerm: string, selectedType: string, maxPrice: string, sortBy: string)

  /** The controls on first render: no search term, every type and price, newest first. */
  const InitialControls := Controls("", "all", "all", DefaultSort)

  /** The keys the page ever sends. */
  const ApiKeys: seq<string> := ["city", "type", "maxPrice", "sortBy"]

  /** What each request key should carry, given the URL's `location`, `type`
      and `maxPrice`: `city` the location when non-empty, `type` and `maxPrice`
      when selected (the price as a number), `sortBy` always, any other key nothing. */
  function ApiValue(location: Option<string>, kind: Option<string>, price: Option<string>, sortBy: string, key: string): Option<string> {
    if key == "city" then (if Truthy(location) then location else None)
    else if key == "type" then (if Selected(kind) then kind else None)
    else if key == "maxPrice" then (if Selected(price) then Some(PriceText(price.value)) else None)
    else if key == "sortBy" then Some(sortBy)
    else None
  }

  /** The assignments of the effect, in order. */
  function Assemble(location: Option<string>, kind: Option<string>, price: Option<string>, sortBy: string): seq<Param> {
    var p1 := SetIf([], Truthy(location), "city", location.GetOr(""));
    var p2 := SetIf(p1, Selected(kind), "type", kind.GetOr(""));
    var p3 := SetIf(p2, Selected(price), "maxPrice", if Selected(price) then PriceText(price.value) else "");
    Set(p3, "sortBy", sortBy)
  }

  lemma AssembleReads(location: Option<string>, kind: Option<string>, price: Option<string>, sortBy: string, key: string)
    ensures Get(Assemble(location, kind, price, sortBy), key) == ApiValue(location, kind, price, sortBy, key)
    ensures DistinctKeys(Assemble(location, kind, price, sortBy))
  {
    var priceText := if Selected(price) then PriceText(price.value) else "";
    var p1 := SetIf([], Truthy(location), "city", location.GetOr(""));
    var p2 := SetIf(p1, Selected(kind), "type", kind.GetOr(""));
    var p3 := SetIf(p2, Selected(price), "maxPrice", priceText);
    SetIfGet([], Truthy(location), "city", location.GetOr(""), key);
    SetIfGet(p1, Selected(kind), "type", kind.GetOr(""), key);
    SetIfGet(p2, Selected(price), "maxPrice", priceText, key);
    SetIfGet(p3, true, "sortBy", sortBy, key);
  }

  /** The request parameters: each key carries exactly what `ApiValue` prescribes, and no key twice. */
  function ApiParams(url: seq<Param>, sortBy: string): (ps: seq<Param>)
    ensures forall key :: Get(ps, key) == ApiValue(Get(url, "location"), Get(url, "type"), Get(url, "maxPrice"), sortBy, key)
    ensures DistinctKeys(ps)
  {
    var location := Get(url, "location");
    var kind := Get(url, "type");
    var price := Get(url, "maxPrice");
    assert forall key :: Get(Assemble(location, kind, price, sortBy), key) == ApiValue(location, kind, price, sortBy, key) by {
      forall key
        ensures Get(Assemble(location, kind, price, sortBy), key) == ApiValue(location, kind, price, sortBy, key)
      {
        AssembleReads(location, kind, price, sortBy, key);
      }
    }
    AssembleReads(location, kind, price, sortBy, "");
    Assemble(location, kind, price, sortBy)
  }

  lemma ApiParamsRead(url: seq<Param>, sortBy: string, key: string)
    ensures Get(ApiParams(url, sortBy), key) == ApiValue(Get(url, "location"), Get(url, "type"), Get(url, "maxPrice"), sortBy, key)
  {
  }

  /** The controls after the effect: each is set from the URL only when forwarded. */
  function ControlsFrom(url: seq<Param>, c: Controls): (r: Controls)
    ensures Truthy(Get(url, "location")) ==> r.searchTerm == Get(url, "location").value
    ensures !Truthy(Get(url, "location")) ==> r.searchTerm == c.searchTerm
    ensures Selected(Get(url, "type")) ==> r.selectedType == Get(url, "type").value
    ensures !Selected(Get(url, "type")) ==> r.selectedType == c.selectedType
    ensures Selected(Get(url, "maxPrice")) ==> r.maxPrice == Get(url, "maxPrice").value
    ensures !Selected(Get(url, "maxPrice")) ==> r.maxPrice == c.maxPrice
    ensures r.sortBy == c.sortBy
  {
    var location := Get(url, "location");
    var kind := Get(url, "type");
    var price := Get(url, "maxPrice");
    Controls(
      if Truthy(location) then location.value else c.searchTerm,
      if Selected(kind) then kind.value else c.selectedType,
      if Selected(price) then price.value else c.maxPrice,
      c.sortBy)
  }

  /** The shown list: `properties || response || []`, and `[]` when the request fails. */
  function Results(reply: Result<Responses.Payload<Property>>): (r: Option<seq<Property>>)
    ensures reply.Err? ==> r == Some([])
    ensures reply.Ok? ==> r == Responses.ListOf(reply.value)
  {
    Responses.ListOrEmpty(reply)
  }

  /** With no URL parameters the request carries only the sort order, which on
      first render is newest first. */
  lemma BareUrlSortsOnly(sortBy: string)
    ensures ApiParams([], sortBy) == [Param("sortBy", sortBy)]
    ensures ApiParams([], InitialControls.sortBy) == [Param("sortBy", "-createdAt")]
  {
  }
}

=== FILE: property_card.dfy ===
/** A listing card (src/components/PropertyCard.tsx): which id the card uses,
    its favourite flag and toggle, and the text it derives from the listing.
    The favourite toggle by key is shared with the detail page. */
module PropertyCard {
  import opened Base
  import opened Domain
  import opened Seqs
  import opened Storage
  import opened FavoriteList

  /** `property.id || property._id`: the card's link, flag and toggle key. */
  function CardKey(p: Property): (k: Id)
    ensures Truthy(p.id) ==> k == p.id
    ensures !Truthy(p.id) ==> k == p.mongoId
    ensures Truthy(k) <==> Truthy(p.id) || Truthy(p.mongoId)
  {
    Or(p.id, p.mongoId)
  }

  /** A value interpolated into a template string: a missing one reads "undefined". */
  function Shown(x: Id): string {
    if x.Some? then x.value else "undefined"
  }

  /** The card's link target. */
  function Link(p: Property): string {
    "/property/" + Shown(CardKey(p))
  }

  /** `favorites.includes(key)`: a missing key is never listed, since the list holds strings. */
  predicate Listed(favs: seq<string>, key: Id) {
    key.Some? && key.value in favs
  }

  /** The flag shown when the card mounts; reading a corrupt favourites entry throws. */
  function InitialFlag(st: Store, p: Property): (r: Result<bool>)
    ensures r.Ok? <==> GetFavorites(st).Ok?
    ensures r.Ok? ==> (r.value <==> CardKey(p).Some? && CardKey(p).value in GetFavorites(st).value)
  {
    var favs :- GetFavorites(st);
    Ok(Listed(favs, CardKey(p)))
  }

  /** `toggleFavorite(key)` followed by `includes(key)` on the list it returns.
      A missing key leaves the stored ids as they are and reads as listed. */
  function ToggleByKey(st: Store, key: Id): (r: Result<(Store, bool)>)
    ensures r.Ok? <==> GetFavorites(st).Ok?
    ensures r.Ok? && key.Some? ==> r.value.0 == ToggleFavorite(st, key.value).value.0
    ensures r.Ok? && key.Some? ==> (r.value.1 <==> key.value in GetFavorites(r.value.0).value)
    ensures r.Ok? && key.None? ==> r.value == (st, true)
  {
    var favs :- GetFavorites(st);
    match key
    case None => Ok((st, true))
    case Some(k) =>
      var toggled := ToggleFavorite(st, k).value;
      Ok((toggled.0, k in toggled.1))
  }

  /** `handleToggleFavorite` of the card. */
  function Toggle(st: Store, p: Property): (r: Result<(Store, bool)>)
    ensures r.Ok? <==> GetFavorites(st).Ok?
    ensures r.Ok? && CardKey(p).Some? ==>
              && GetFavorites(r.value.0) == Ok(Toggled(GetFavorites(st).value, CardKey(p).value))
              && (r.value.1 <==> CardKey(p).value !in GetFavorites(st).value || Count(GetFavorites(st).value, CardKey(p).value) > 1)
              && forall k :: k in st && k != FavoritesKey ==> k in r.value.0 && r.value.0[k] == st[k]
    ensures r.Ok? && CardKey(p).None? ==> r.value == (st, true)
  {
    var key := CardKey(p);
    assert GetFavorites(st).Ok? && key.Some? ==>
             (key.value in Toggled(GetFavorites(st).value, key.value)
              <==> key.value !in GetFavorites(st).value || Count(GetFavorites(st).value, key.value) > 1) by {
      if GetFavorites(st).Ok? && key.Some? {
        ToggleCount(GetFavorites(st).value, key.value);
      }
    }
    ToggleByKey(st, key)
  }

  /** With a duplicate-free favourites list, toggling a card flips its flag, and a
      card mounted afterwards shows the flag the toggle set. */
  lemma ToggleFlipsCard(st: Store, p: Property)
    requires GetFavorites(st).Ok? && NoDup(GetFavorites(st).value)
    requires CardKey(p).Some?
    ensures Toggle(st, p).Ok?
    ensures Toggle(st, p).value.1 == !InitialFlag(st, p).value
    ensures InitialFlag(Toggle(st, p).value.0, p) == Ok(Toggle(st, p).value.1)
    ensures NoDup(GetFavorites(Toggle(st, p).value.0).value)
  {
    ToggleFlipsMembership(GetFavorites(st).value, CardKey(p).value);
  }

  /** `getImageUrl`: a URL string is itself, an upload record gives its `url`. */
  function ImageSource(image: Image): (url: string)
    ensures image.ImageUrl? ==> url == image.url
    ensures image.ImageRecord? ==> url == image.url
  {
    match image
    case ImageUrl(u) => u
    case ImageRecord(u, _) => u
  }

  /** `getLocationString` of the card: the string itself, otherwise the template
      `${city}, ${state}`, whose missing parts read "undefined". */
  function CardLocationLabel(loc: Location): (shown: string)
    ensures loc.PlainLocation? ==> shown == loc.text
    ensures !loc.PlainLocation? ==> shown == Shown(CityOf(loc)) + ", " + Shown(if loc.Address? then loc.state else None)
  {
    if loc.PlainLocation? then loc.text
    else Shown(CityOf(loc)) + ", " + Shown(if loc.Address? then loc.state else None)
  }

  /** The template string is never empty, so the "Location not specified" fallback
      is never shown; the card agrees with the dashboards exactly where city and
      state are both present. */
  lemma CardLocationNeverFallsBack(loc: Location)
    ensures !loc.PlainLocation? ==> |CardLocationLabel(loc)| >= 2
    ensures loc.PlainLocation? || (loc.Address? && Truthy(loc.city) && Truthy(loc.state)) ==>
              CardLocationLabel(loc) == DashboardLocationLabel(loc)
    ensures loc.NoLocation? ==> CardLocationLabel(loc) == "undefined, undefined"
  {
  }

  /** The bed and bath row is shown for every kind except land. */
  predicate ShowsRooms(kind: PropertyKind) {
    kind != Land
  }

  lemma ShowsRoomsExceptLand(kind: PropertyKind)
    ensures ShowsRooms(kind) <==> KindName(kind) != "land"
  {
  }
}

=== FILE: property_detail.dfy ===
/** The listing detail page (src/pages/PropertyDetailPage.tsx): the image
    carousel's wrap-around index, the favourite flag and toggle, and the
    inquiry form's checks. The page as written looks the favourite up under
    one key and toggles it under another; `OpenAsWritten`/`ToggleAsWritten`
    model that, `Open`/`Toggle` the single-key behaviour the page evidently
    intends. */
module PropertyDetail {
  import opened Base
  import opened Domain
  import opened Seqs
  import opened Storage
  import opened FavoriteList
  import opened EmailPattern
  import opened PropertyCard
  import Api
  import Login

  /** `handleNextImage`'s update: the last index wraps to 0. */
  function NextIndex(i: int, n: int): (j: int)
    ensures 0 <= i < n ==> 0 <= j < n && j == (i + 1) % n
  {
    if i == n - 1 then 0 else i + 1
  }

  /** `handlePrevImage`'s update: index 0 wraps to the last index. */
  function PrevIndex(i: int, n: int): (j: int)
    ensures 0 <= i < n ==> 0 <= j < n && j == (i - 1) % n
  {
    if i == 0 then n - 1 else i - 1
  }

  /** The two arrows undo each other. */
  lemma PrevNextInverse(i: int, n: int)
    requires 0 <= i < n
    ensures PrevIndex(NextIndex(i, n), n) == i
    ensures NextIndex(PrevIndex(i, n), n) == i
  {
  }

  /** The index after `k` presses of the next arrow. */
  function NextTimes(i: int, n: int, k: nat): int {
    if k == 0 then i else NextIndex(NextTimes(i, n, k - 1), n)
  }

  /** Up to one full round, `k` presses move `k` places forward, wrapping past the end once. */
  lemma {:induction false} NextTimesWraps(i: int, n: int, k: nat)
    requires 0 <= i < n && k <= n
    ensures NextTimes(i, n, k) == if i + k < n then i + k else i + k - n
  {
    if k > 0 {
      NextTimesWraps(i, n, k - 1);
    }
  }

  /** Pressing next once per image comes back to the starting image. */
  lemma FullCycle(i: int, n: int)
    requires 0 <= i < n
    ensures NextTimes(i, n, n) == i
  {
    NextTimesWraps(i, n, n);
  }

  /** What the page holds: the loaded listing (if any), the favourite flag, the carousel index. */
  datatype Detail = Detail(property: Option<Property>, isFavorite: bool, index: int)

  const Initial := Detail(None, false, 0)

  const LoadFailedText := "Failed to load property details"
  const RemovedText := "Removed from favorites"
  const AddedText := "Added to favorites"

  /** The page after loading: its state, the request issued (if any) and the toast. */
  datatype Loaded = Loaded(page: Detail, request: Option<Api.ApiCall>, toast: Toast)

  /** Loading, parameterised by the key the stored favourites are searched for.
      Without a route id nothing is requested; a failed read of the favourites
      happens after the listing is set, so the listing stays and the flag stays false. */
  function LoadWith(st: Store, routeId: string, reply: Result<Property>, key: Property -> Id): (r: Loaded)
    ensures routeId == "" ==> r == Loaded(Initial, None, Silent)
    ensures routeId != "" ==> r.request == Some(Api.PropertyById(routeId))
    ensures routeId != "" && reply.Err? ==> r.page == Initial && r.toast == Failure(LoadFailedText)
    ensures routeId != "" && reply.Ok? ==> r.page.property == Some(reply.value) && r.page.index == 0
    ensures routeId != "" && reply.Ok? && GetFavorites(st).Ok? ==>
              r.page.isFavorite == Listed(GetFavorites(st).value, key(reply.value)) && r.toast == Silent
  {
    if routeId == "" then Loaded(Initial, None, Silent)
    else
      var request := Some(Api.PropertyById(routeId));
      match reply
      case Err(_) => Loaded(Initial, request, Failure(LoadFailedText))
      case Ok(p) =>
        match GetFavorites(st)
        case Ok(favs) => Loaded(Detail(Some(p), Listed(favs, key(p)), 0), request, Silent)
        case Err(_) => Loaded(Detail(Some(p), false, 0), request, Failure(LoadFailedText))
  }

  /** As written: the stored favourites are searched for `_id || <route id>`. */
  function OpenAsWritten(st: Store, routeId: string, reply: Result<Property>): (r: Loaded)
    ensures routeId != "" && reply.Ok? && GetFavorites(st).Ok? ==>
              r.page.isFavorite == (Or(reply.value.mongoId, Some(routeId)).value in GetFavorites(st).value)
  {
    LoadWith(st, routeId, reply, (p: Property) => Or(p.mongoId, Some(routeId)))
  }

  /** Intended: the stored favourites are searched for the card's key, the one the toggle writes. */
  function Open(st: Store, routeId: string, reply: Result<Property>): (r: Loaded)
    ensures routeId != "" && reply.Ok? && GetFavorites(st).Ok? ==>
              r.page.isFavorite == Listed(GetFavorites(st).value, CardKey(reply.value))
  {
    LoadWith(st, routeId, reply, CardKey)
  }

  /** The carousel arrows; both do nothing before a listing is loaded. */
  function Next(d: Detail): (r: Detail)
    ensures d.property.None? ==> r == d
    ensures d.property.Some? ==> r == d.(index := NextIndex(d.index, |d.property.value.images|))
  {
    if d.property.None? then d else d.(index := NextIndex(d.index, |d.property.value.images|))
  }

  function Prev(d: Detail): (r: Detail)
    ensures d.property.None? ==> r == d
    ensures d.property.Some? ==> r == d.(index := PrevIndex(d.index, |d.property.value.images|))
  {
    if d.property.None? then d else d.(index := PrevIndex(d.index, |d.property.value.images|))
  }

  /** `handleToggleFavorite`, parameterised by the toggle key. The toast reports
      the flag as it was before the toggle; a thrown read leaves everything as it was. */
  function ToggleWith(st: Store, d: Detail, key: Property -> Id): (r: (Store, Detail, Toast))
    ensures d.property.None? ==> r == (st, d, Silent)
    ensures d.property.Some? && GetFavorites(st).Ok? ==>
              && r.0 == ToggleByKey(st, key(d.property.value)).value.0
              && r.1 == d.(isFavorite := ToggleByKey(st, key(d.property.value)).value.1)
              && r.2 == Success(if d.isFavorite then RemovedText else AddedText)
    ensures GetFavorites(st).Err? ==> r == (st, d, Silent)
  {
    if d.property.None? then (st, d, Silent)
    else
      match ToggleByKey(st, key(d.property.value))
      case Err(_) => (st, d, Silent)
      case Ok(res) => (res.0, d.(isFavorite := res.1), Success(if d.isFavorite then RemovedText else AddedText))
  }

  /** As written: the toggle uses `property.id`. */
  function ToggleAsWritten(st: Store, d: Detail): (r: (Store, Detail, Toast))
    ensures d.property.Some? && d.property.value.id.Some? && GetFavorites(st).Ok? ==>
              GetFavorites(r.0) == Ok(Toggled(GetFavorites(st).value, d.property.value.id.value))
  {
    ToggleWith(st, d, (p: Property) => p.id)
  }

  /** Intended: the toggle uses the card's key. */
  function Toggle(st: Store, d: Detail): (r: (Store, Detail, Toast))
    ensures d.property.Some? && CardKey(d.property.value).Some? && GetFavorites(st).Ok? ==>
              GetFavorites(r.0) == Ok(Toggled(GetFavorites(st).value, CardKey(d.property.value).value))
  {
    ToggleWith(st, d, CardKey)
  }

  /** A listing carrying both a sample id and a server id, opened from its card
      while favourited: the page shows it as not favourited, and pressing the
      heart then removes it while announcing that it was added. */
  lemma AsWrittenFlagDisagrees()
    ensures var p := Property(Some("1"), Some("abc"), "Loft", "", 100, NoLocation, Condo, 1, 1, 50, [], false);
            var st: Store := map[FavoritesKey := Json(IdsDoc(["1"]))];
            var page := OpenAsWritten(st, Link(p)[10..], Ok(p)).page;
            var after := ToggleAsWritten(st, page);
            && InitialFlag(st, p) == Ok(true)
            && !page.isFavorite
            && GetFavorites(after.0) == Ok([])
            && after.2 == Success(AddedText)
            && !after.1.isFavorite
  {
    var p := Property(Some("1"), Some("abc"), "Loft", "", 100, NoLocation, Condo, 1, 1, 50, [], false);
    assert Link(p)[10..] == "1";
    assert "abc" != "1";
    assert IndexOf(["1"], "1") == 0;
  }

  /** With the intended key the page agrees with the card, the toggle flips the
      flag, the toast describes what the toggle did, and reopening the page shows
      the new flag. */
  lemma ToggleFlipsFlag(st: Store, routeId: string, p: Property)
    requires routeId != "" && GetFavorites(st).Ok? && NoDup(GetFavorites(st).value)
    requires CardKey(p).Some?
    ensures var d := Open(st, routeId, Ok(p)).page;
            var after := Toggle(st, d);
            && Ok(d.isFavorite) == InitialFlag(st, p)
            && after.1.isFavorite == !d.isFavorite
            && after.2 == Success(if after.1.isFavorite then AddedText else RemovedText)
            && Open(after.0, routeId, Ok(p)).page.isFavorite == after.1.isFavorite
  {
    ToggleFlipsCard(st, p);
  }

  /** The inquiry form. */
  datatype Inquiry = Inquiry(name: string, email: string, message: string)

  const SentText := "Inquiry sent successfully! We'll get back to you soon."

  /** `handleSubmitInquiry`: all fields filled, then the email pattern; a valid
      inquiry clears the form. Nothing is sent. */
  function SubmitInquiry(q: Inquiry): (r: (Inquiry, Toast))
    ensures r.1.Success? <==> q.name != "" && q.email != "" && q.message != "" && ValidEmail(q.email)
    ensures (q.name == "" || q.email == "" || q.message == "") ==> r == (q, Failure(Login.FillAllFields))
    ensures q.name != "" && q.email != "" && q.message != "" && !ValidEmail(q.email) ==> r == (q, Failure(Login.InvalidEmailText))
    ensures r.1.Success? ==> r.0 == Inquiry("", "", "")
  {
    if q.name == "" || q.email == "" || q.message == "" then (q, Failure(Login.FillAllFields))
    else if !ValidEmail(q.email) then (q, Failure(Login.InvalidEmailText))
    else (Inquiry("", "", ""), Success(SentText))
  }
}

=== FILE: query.dfy ===
/** `new URLSearchParams(params).toString()`: `key=value` pairs joined by `&`,
    in insertion order. The model renders keys and values verbatim, which is
    what the browser does for the characters `UrlSafe` admits. */
module Query {
  import opened Base
  import opened Seqs

  datatype Param = Param(key: string, value: string)

  /** The characters the form-urlencoded serializer leaves unescaped. */
  predicate UrlSafe(c: char) {
    ('a' <= c <= 'z') || ('A' <= c <= 'Z') || ('0' <= c <= '9')
    || c == '*' || c == '-' || c == '.' || c == '_'
  }

  predicate Plain(s: string) {
    forall i :: 0 <= i < |s| ==> UrlSafe(s[i])
  }

  predicate PlainParams(ps: seq<Param>) {
    forall k :: 0 <= k < |ps| ==> Plain(ps[k].key) && Plain(ps[k].value)
  }

  function Pair(p: Param): string {
    p.key + "=" + p.value
  }

  /** `parts.join(sep)` for a non-empty list of parts. */
  function Join(parts: seq<string>, sep: char): string
    requires |parts| >= 1
  {
    if |parts| == 1 then parts[0] else parts[0] + [sep] + Join(parts[1..], sep)
  }

  /** `s.split(sep)`: always at least one part. */
  function Split(s: string, sep: char): (parts: seq<string>)
    ensures |parts| >= 1
    ensures forall k :: 0 <= k < |parts| ==> sep !in parts[k]
    decreases |s|
  {
    var i := IndexOf(s, sep);
    if i < 0 then [s] else [s[..i]] + Split(s[i + 1..], sep)
  }

  /** The query string; empty exactly when there are no parameters. */
  function Encode(ps: seq<Param>): (q: string)
    ensures q == "" <==> |ps| == 0
  {
    if |ps| == 0 then "" else Join(Map(ps, Pair), '&')
  }

  /** Reading one `key=value` pair back (a pair without `=` has an empty value). */
  function ParsePair(s: string): Param {
    var i := IndexOf(s, '=');
    if i < 0 then Param(s, "") else Param(s[..i], s[i + 1..])
  }

  /** Reading a whole query string back into its parameters. */
  function Decode(q: string): seq<Param> {
    if q == "" then [] else Map(Split(q, '&'), ParsePair)
  }

  lemma IndexOfAfterPrefix(a: string, sep: char, b: string)
    requires sep !in a
    ensures IndexOf(a + [sep] + b, sep) == |a|
  {
    var s := a + [sep] + b;
    assert s[..|a|] == a;
    assert s[|a|] == sep;
  }

  /** Splitting at the first separator peels off the part before it. */
  lemma SplitCons(a: string, sep: char, rest: string)
    requires sep !in a
    ensures Split(a + [sep] + rest, sep) == [a] + Split(rest, sep)
  {
    var s := a + [sep] + rest;
    IndexOfAfterPrefix(a, sep, rest);
    assert s[..|a|] == a;
    assert s[|a| + 1..] == rest;
  }

  lemma {:induction false} SplitJoin(parts: seq<string>, sep: char)
    requires |parts| >= 1
    requires forall k :: 0 <= k < |parts| ==> sep !in parts[k]
    ensures Split(Join(parts, sep), sep) == parts
    decreases |parts|
  {
    if |parts| > 1 {
      var tail := parts[1..];
      assert forall k :: 0 <= k < |tail| ==> sep !in tail[k] by {
        forall k | 0 <= k < |tail| ensures sep !in tail[k] {
          assert tail[k] == parts[k + 1];
        }
      }
      SplitJoin(tail, sep);
      SplitCons(parts[0], sep, Join(tail, sep));
      assert parts == [parts[0]] + tail;
    }
  }

  lemma PairRoundTrip(p: Param)
    requires Plain(p.key) && Plain(p.value)
    ensures ParsePair(Pair(p)) == p
    ensures '&' !in Pair(p)
  {
    assert '=' !in p.key;
    IndexOfAfterPrefix(p.key, '=', p.value);
    var s := Pair(p);
    assert s[..|p.key|] == p.key;
    assert s[|p.key| + 1..] == p.value;
    forall i | 0 <= i < |s| ensures s[i] != '&' {
      if i < |p.key| {
        assert s[i] == p.key[i];
      } else if i > |p.key| {
        assert s[i] == p.value[i - |p.key| - 1];
      }
    }
  }

  /** Prepending a parameter prepends its pair and one `&`. */
  lemma EncodeCons(p: Param, rest: seq<Param>)
    requires |rest| > 0
    ensures Encode([p] + rest) == Pair(p) + "&" + Encode(rest)
  {
    var ps := [p] + rest;
    assert ps[1..] == rest;
    assert Map(ps, Pair) == [Pair(p)] + Map(rest, Pair);
    assert Map(ps, Pair)[1..] == Map(rest, Pair);
  }

  lemma EncodeSingle(p: Param)
    ensures Encode([p]) == Pair(p)
  {
    assert Map([p], Pair) == [Pair(p)];
  }

  /** For URL-safe keys and values the query string reads back as the parameter list. */
  lemma DecodeEncode(ps: seq<Param>)
    requires PlainParams(ps)
    ensures Decode(Encode(ps)) == ps
  {
    if |ps| > 0 {
      var pairs := Map(ps, Pair);
      forall k | 0 <= k < |pairs| ensures '&' !in pairs[k] && ParsePair(pairs[k]) == ps[k] {
        PairRoundTrip(ps[k]);
      }
      SplitJoin(pairs, '&');
      assert Map(Split(Encode(ps), '&'), ParsePair) == ps;
    }
  }

  /** `URLSearchParams.get(key)`: the value of the first parameter named `key`. */
  function Get(ps: seq<Param>, key: string): (r: Option<string>)
    ensures r.Some? <==> exists k :: 0 <= k < |ps| && ps[k].key == key
    ensures r.Some? ==> exists k :: 0 <= k < |ps| && ps[k] == Param(key, r.value)
    ensures r.Some? ==> var i := IndexOf(Keys(ps), key); 0 <= i && ps[i] == Param(key, r.value)
  {
    if |ps| == 0 then None
    else if ps[0].key == key then Some(ps[0].value)
    else
      var r := Get(ps[1..], key);
      assert forall k :: 0 < k < |ps| ==> ps[k] == ps[1..][k - 1];
      r
  }

  /** The parameter keys, in order. */
  function Keys(ps: seq<Param>): (ks: seq<string>)
    ensures |ks| == |ps|
    ensures forall k :: 0 <= k < |ps| ==> ks[k] == ps[k].key
  {
    Map(ps, (p: Param) => p.key)
  }

  /** `params.set(key, value)` (and `record[key] = value`) on a parameter list whose
      keys are distinct, the only kind built here (`SetKeepsKeysDistinct`): the value
      of an existing key is replaced in place, a new key is appended.
      `URLSearchParams.set` also drops later pairs with the same key; with distinct
      keys there are none, and this function keeps them. */
  function Set(ps: seq<Param>, key: string, value: string): (r: seq<Param>)
    ensures |r| == |ps| || |r| == |ps| + 1
    ensures forall i :: 0 <= i < |r| ==> r[i] == Param(key, value) || r[i] in ps
  {
    if |ps| == 0 then [Param(key, value)]
    else if ps[0].key == key then [Param(key, value)] + ps[1..]
    else [ps[0]] + Set(ps[1..], key, value)
  }

  /** After `set`, the key reads the new value and every other key reads what it did before. */
  lemma {:induction false} SetGet(ps: seq<Param>, key: string, value: string, other: string)
    ensures Get(Set(ps, key, value), key) == Some(value)
    ensures other != key ==> Get(Set(ps, key, value), other) == Get(ps, other)
  {
    if |ps| > 0 {
      var r := Set(ps, key, value);
      if ps[0].key == key {
        assert r[1..] == ps[1..];
      } else {
        assert r[1..] == Set(ps[1..], key, value);
        SetGet(ps[1..], key, value, other);
      }
    }
  }

  /** Distinct keys: no key occurs twice. */
  predicate DistinctKeys(ps: seq<Param>) {
    forall a, b :: 0 <= a < b < |ps| ==> ps[a].key != ps[b].key
  }

  /** `set` never duplicates a key. */
  lemma {:induction false} SetKeepsKeysDistinct(ps: seq<Param>, key: string, value: string)
    requires DistinctKeys(ps)
    ensures DistinctKeys(Set(ps, key, value))
  {
    if |ps| > 0 && ps[0].key != key {
      var rest := Set(ps[1..], key, value);
      SetKeepsKeysDistinct(ps[1..], key, value);
      var r := Set(ps, key, value);
      assert r == [ps[0]] + rest;
      forall b | 0 < b < |r| ensures r[0].key != r[b].key {
        assert r[b] == rest[b - 1];
        if rest[b - 1] != Param(key, value) {
          var k :| 0 <= k < |ps[1..]| && ps[1..][k] == rest[b - 1];
          assert ps[k + 1] == ps[1..][k];
        }
      }
    }
  }

  /** `if (on) params.set(key, value)` */
  function SetIf(ps: seq<Param>, on: bool, key: string, value: string): seq<Param> {
    if on then Set(ps, key, value) else ps
  }

  lemma SetIfGet(ps: seq<Param>, on: bool, key: string, value: string, other: string)
    ensures Get(SetIf(ps, on, key, value), other) == if on && other == key then Some(value) else Get(ps, other)
    ensures DistinctKeys(ps) ==> DistinctKeys(SetIf(ps, on, key, value))
    ensures PlainParams(ps) && Plain(key) && Plain(value) ==> PlainParams(SetIf(ps, on, key, value))
  {
    SetGet(ps, key, value, other);
    if DistinctKeys(ps) {
      SetKeepsKeysDistinct(ps, key, value);
    }
  }
}

=== FILE: responses.dfy ===
/** The defensive list normalisation the pages apply to collection replies:
    `response.<field> || response || []`. */
module Responses {
  import opened Base

  /** A parsed collection reply: an object that may carry the list under a
      named field, a bare array, or a falsy value. */
  datatype Payload<T> = Envelope(field: Option<seq<T>>) | Bare(items: seq<T>) | Falsy

  /** What the page keeps: a list, or (for an object without the field) the
      object itself, which is not a list (`None`). Arrays are truthy even when empty. */
  function ListOf<T>(p: Payload<T>): (r: Option<seq<T>>)
    ensures p.Envelope? && p.field.Some? ==> r == p.field
    ensures p.Bare? ==> r == Some(p.items)
    ensures p.Falsy? ==> r == Some([])
    ensures r.None? <==> p.Envelope? && p.field.None?
  {
    match p
    case Envelope(Some(xs)) => Some(xs)
    case Envelope(None) => None
    case Bare(xs) => Some(xs)
    case Falsy => Some([])
  }

  /** A fetch-and-normalise step whose failure handler sets `[]`. */
  function ListOrEmpty<T>(reply: Result<Payload<T>>): (r: Option<seq<T>>)
    ensures reply.Err? ==> r == Some([])
    ensures reply.Ok? ==> r == ListOf(reply.value)
  {
    match reply
    case Ok(p) => ListOf(p)
    case Err(_) => Some([])
  }
}

=== FILE: route_gate.dfy ===
/** `ProtectedRoute` (src/components/ProtectedRoute.tsx) and the role sets
    src/App.tsx gives it for the two dashboards. */
module RouteGate {
  import opened Base
  import opened Domain

  /** The result of `getCurrentUser()` as the gate tests it: `undefined`
      (still loading), `null`, or a user. */
  datatype Lookup = Undefined | Null | Found(user: User)

  /** `getCurrentUser` returns a user or `null`, never `undefined`. */
  function FromSession(session: Option<User>): (l: Lookup)
    ensures !l.Undefined?
    ensures l.Found? <==> session.Some?
  {
    if session.Some? then Found(session.value) else Null
  }

  datatype Gate = Loading | Redirect(to: string) | Render

  const LoginPath := "/login"
  const HomePath := "/"

  /** `allowedRoles` of the `/dashboard` route. */
  const DashboardRoles: seq<Role> := [Owner, Admin]
  /** `allowedRoles` of the `/admin/dashboard` route. */
  const AdminRoles: seq<Role> := [Admin]

  /** The route table's `allowedRoles` for a path (`None` for an unprotected page). */
  function RouteRoles(path: string): Option<seq<Role>> {
    if path == "/dashboard" then Some(DashboardRoles)
    else if path == "/admin/dashboard" then Some(AdminRoles)
    else None
  }

  /** The decision: loading while undefined, to `/login` without a session, to
      `/` when a role list is given and lacks the role, otherwise the children.
      A given list is truthy even when empty. */
  function ProtectedRoute(current: Lookup, allowedRoles: Option<seq<Role>>): (g: Gate)
    ensures current.Null? ==> g == Redirect(LoginPath)
    ensures g == Render <==> current.Found? && (allowedRoles.None? || current.user.role in allowedRoles.value)
    ensures g == Redirect(HomePath) <==> current.Found? && allowedRoles.Some? && current.user.role !in allowedRoles.value
    ensures g == Loading <==> current.Undefined?
  {
    match current
    case Undefined => Loading
    case Null => Redirect(LoginPath)
    case Found(u) =>
      if allowedRoles.Some? && u.role !in allowedRoles.value then Redirect(HomePath) else Render
  }

  /** With a real session lookup the loading branch is never taken. */
  lemma NeverLoading(session: Option<User>, allowedRoles: Option<seq<Role>>)
    ensures ProtectedRoute(FromSession(session), allowedRoles) != Loading
    ensures session.None? ==> ProtectedRoute(FromSession(session), allowedRoles) == Redirect(LoginPath)
    ensures session.Some? && allowedRoles.None? ==> ProtectedRoute(FromSession(session), allowedRoles) == Render
  {
  }

  /** With the configured role sets: a customer reaches neither dashboard, an
      owner is sent home from the admin route, an admin reaches both. */
  lemma ConfiguredRoutes(u: User)
    ensures u.role == Customer ==>
              && ProtectedRoute(Found(u), Some(DashboardRoles)) == Redirect(HomePath)
              && ProtectedRoute(Found(u), Some(AdminRoles)) == Redirect(HomePath)
    ensures u.role == Owner ==>
              && ProtectedRoute(Found(u), Some(AdminRoles)) == Redirect(HomePath)
              && ProtectedRoute(Found(u), Some(DashboardRoles)) == Render
    ensures u.role == Admin ==>
              && ProtectedRoute(Found(u), Some(AdminRoles)) == Render
              && ProtectedRoute(Found(u), Some(DashboardRoles)) == Render
  {
  }

  /** A dashboard page's own entry check, run before it loads anything. */
  datatype PageEntry = Proceed | LeaveFor(path: string)

  /** Proceed for a session whose role is listed; otherwise navigate to `/login` and render nothing. */
  function PageGate(session: Option<User>, roles: seq<Role>): (e: PageEntry)
    ensures e.Proceed? <==> session.Some? && session.value.role in roles
    ensures e.LeaveFor? ==> e.path == LoginPath
  {
    if session.Some? && session.value.role in roles then Proceed else LeaveFor(LoginPath)
  }

  /** The page's own check admits exactly the sessions the route gate renders for;
      the two differ only in where a signed-in user with the wrong role is sent. */
  lemma PageGateAgreesWithRoute(session: Option<User>, roles: seq<Role>)
    ensures PageGate(session, roles).Proceed? <==> ProtectedRoute(FromSession(session), Some(roles)) == Render
    ensures session.Some? && !PageGate(session, roles).Proceed? ==>
              && PageGate(session, roles) == LeaveFor(LoginPath)
              && ProtectedRoute(FromSession(session), Some(roles)) == Redirect(HomePath)
  {
  }
}

=== FILE: seqs.dfy ===
/** Sequence operations the front-end performs through `Array.prototype`
    methods: `indexOf`, `splice(i, 1)`, `filter`, `includes`. */
module Seqs {

  /** `xs.indexOf(x)`: the first index holding `x`, or -1. */
  function IndexOf<T(==)>(xs: seq<T>, x: T): (i: int)
    ensures -1 <= i < |xs|
    ensures i == -1 <==> x !in xs
    ensures 0 <= i ==> xs[i] == x && x !in xs[..i]
  {
    if |xs| == 0 then -1
    else if xs[0] == x then 0
    else
      var j := IndexOf(xs[1..], x);
      assert j >= 0 ==> xs[..j + 1] == [xs[0]] + xs[1..][..j];
      if j == -1 then -1 else j + 1
  }

  /** `xs.filter((_, k) => k !== i)`, equivalently `splice(i, 1)` on a copy.
      An index outside the sequence removes nothing. */
  function RemoveAt<T>(xs: seq<T>, i: int): (r: seq<T>)
    ensures 0 <= i < |xs| ==> |r| == |xs| - 1
    ensures 0 <= i < |xs| ==> forall k :: 0 <= k < |r| ==> r[k] == (if k < i then xs[k] else xs[k + 1])
    ensures !(0 <= i < |xs|) ==> r == xs
  {
    if 0 <= i < |xs| then xs[..i] + xs[i + 1..] else xs
  }

  /** `xs.filter(y => y !== x)`: every occurrence of `x` dropped, the rest in order. */
  function Without<T(==)>(xs: seq<T>, x: T): (r: seq<T>)
    ensures x !in r
    ensures forall k :: 0 <= k < |r| ==> r[k] in xs
    ensures forall k :: 0 <= k < |xs| && xs[k] != x ==> xs[k] in r
    ensures |r| <= |xs|
  {
    if |xs| == 0 then []
    else if xs[0] == x then Without(xs[1..], x)
    else [xs[0]] + Without(xs[1..], x)
  }

  lemma {:induction false} WithoutConcat<T>(a: seq<T>, b: seq<T>, x: T)
    ensures Without(a + b, x) == Without(a, x) + Without(b, x)
  {
    if |a| > 0 {
      assert (a + b)[1..] == a[1..] + b;
      WithoutConcat(a[1..], b, x);
    } else {
      assert a + b == b;
    }
  }

  lemma {:induction false} WithoutAbsent<T>(xs: seq<T>, x: T)
    requires x !in xs
    ensures Without(xs, x) == xs
  {
    if |xs| > 0 {
      WithoutAbsent(xs[1..], x);
    }
  }

  /** Number of occurrences of `x` in `xs`. */
  function Count<T(==)>(xs: seq<T>, x: T): (n: nat)
    ensures n == 0 <==> x !in xs
    ensures n <= |xs|
  {
    if |xs| == 0 then 0 else (if xs[0] == x then 1 else 0) + Count(xs[1..], x)
  }

  lemma {:induction false} CountConcat<T>(a: seq<T>, b: seq<T>, x: T)
    ensures Count(a + b, x) == Count(a, x) + Count(b, x)
  {
    if |a| > 0 {
      assert (a + b)[1..] == a[1..] + b;
      CountConcat(a[1..], b, x);
    } else {
      assert a + b == b;
    }
  }

  /** No value occurs twice. */
  predicate NoDup<T(==)>(xs: seq<T>) {
    forall i, j :: 0 <= i < j < |xs| ==> xs[i] != xs[j]
  }

  lemma NoDupCountAtMostOne<T>(xs: seq<T>, x: T)
    requires NoDup(xs)
    ensures Count(xs, x) <= 1
  {
    if |xs| > 0 {
      assert NoDup(xs[1..]);
      NoDupCountAtMostOne(xs[1..], x);
      if xs[0] == x {
        assert x !in xs[1..];
      }
    }
  }

  /** `xs.filter(p)` for a boolean-valued test `p`. */
  function Filter<T>(xs: seq<T>, p: T -> bool): (r: seq<T>)
    ensures |r| <= |xs|
    ensures forall k :: 0 <= k < |r| ==> r[k] in xs && p(r[k])
    ensures forall k :: 0 <= k < |xs| && p(xs[k]) ==> xs[k] in r
  {
    if |xs| == 0 then []
    else if p(xs[0]) then [xs[0]] + Filter(xs[1..], p)
    else Filter(xs[1..], p)
  }

  /** `xs.map(f)` */
  function Map<T, U>(xs: seq<T>, f: T -> U): (r: seq<U>)
    ensures |r| == |xs|
    ensures forall k :: 0 <= k < |xs| ==> r[k] == f(xs[k])
  {
    if |xs| == 0 then [] else [f(xs[0])] + Map(xs[1..], f)
  }

  /** `a` can be obtained from `b` by deleting elements (order kept). */
  predicate IsSubsequence<T(==)>(a: seq<T>, b: seq<T>)
    decreases |b|
  {
    if |a| == 0 then true
    else if |b| == 0 then false
    else if a[0] == b[0] then IsSubsequence(a[1..], b[1..])
    else IsSubsequence(a, b[1..])
  }

  lemma {:induction false} FilterIsSubsequence<T>(xs: seq<T>, p: T -> bool)
    ensures IsSubsequence(Filter(xs, p), xs)
  {
    if |xs| > 0 {
      FilterIsSubsequence(xs[1..], p);
      if p(xs[0]) {
        assert Filter(xs, p)[1..] == Filter(xs[1..], p);
      }
    }
  }

  /** Filtering keeps every occurrence of a value the test accepts and drops every occurrence of one it rejects. */
  lemma {:induction false} FilterCount<T>(xs: seq<T>, p: T -> bool, x: T)
    ensures p(x) ==> Count(Filter(xs, p), x) == Count(xs, x)
    ensures !p(x) ==> Count(Filter(xs, p), x) == 0
  {
    if |xs| > 0 {
      FilterCount(xs[1..], p, x);
      if p(xs[0]) {
        assert Filter(xs, p)[1..] == Filter(xs[1..], p);
      }
    }
  }

  /** Filtering twice by the same test is filtering once. */
  lemma {:induction false} FilterIdempotent<T>(xs: seq<T>, p: T -> bool)
    ensures Filter(Filter(xs, p), p) == Filter(xs, p)
  {
    if |xs| > 0 {
      FilterIdempotent(xs[1..], p);
      if p(xs[0]) {
        assert Filter(xs, p)[1..] == Filter(xs[1..], p);
      }
    }
  }
}

=== FILE: storage.dfy ===
/** The browser's `localStorage` as the front-end uses it
    (src/utils/localStorage.ts, plus the raw `token` entry written at login).
    Stored JSON is represented by the document it encodes, so encoding and
    decoding are an injective pair by construction. */
module Storage {
  import opened Base
  import opened Domain
  import opened FavoriteList

  const PropertiesKey := "estate_properties"
  const UserKey := "estate_current_user"
  const FavoritesKey := "estate_favorites"
  const TokenKey := "token"

  /** A value written by `JSON.stringify`. */
  datatype Doc = UserDoc(user: User) | IdsDoc(ids: seq<string>) | PropertiesDoc(properties: seq<Property>)

  /** One stored string: raw text, or the JSON text of a document. */
  datatype Item = Text(text: string) | Json(doc: Doc)

  type Store = map<string, Item>

  /** `localStorage.getItem(key)` is truthy: the key is set and not to "". */
  predicate Holds(st: Store, key: string) {
    key in st && st[key] != Text("")
  }

  /** `saveProperties(properties)` */
  function SaveProperties(st: Store, properties: seq<Property>): Store {
    st[PropertiesKey := Json(PropertiesDoc(properties))]
  }

  /** `getProperties()`: `[]` for a missing or empty entry; anything that is not a
      stored property list makes `JSON.parse` (or the caller) fail. */
  function GetProperties(st: Store): (r: Result<seq<Property>>)
    ensures !Holds(st, PropertiesKey) ==> r == Ok([])
    ensures Holds(st, PropertiesKey) ==> (r.Ok? <==> st[PropertiesKey].Json? && st[PropertiesKey].doc.PropertiesDoc?)
  {
    if !Holds(st, PropertiesKey) then Ok([])
    else match st[PropertiesKey]
      case Json(PropertiesDoc(ps)) => Ok(ps)
      case _ => Err("stored properties are not a property list")
  }

  /** `saveCurrentUser(user)` */
  function SaveCurrentUser(st: Store, user: User): Store {
    st[UserKey := Json(UserDoc(user))]
  }

  /** `getCurrentUser()`: `null` (here `None`) for a missing or empty entry. */
  function GetCurrentUser(st: Store): (r: Result<Option<User>>)
    ensures !Holds(st, UserKey) ==> r == Ok(None)
    ensures r.Ok? && r.value.Some? ==> st[UserKey] == Json(UserDoc(r.value.value))
  {
    if !Holds(st, UserKey) then Ok(None)
    else match st[UserKey]
      case Json(UserDoc(u)) => Ok(Some(u))
      case _ => Err("stored session is not a user record")
  }

  /** `clearCurrentUser()`: removes the session entry and nothing else. */
  function ClearCurrentUser(st: Store): (r: Store)
    ensures UserKey !in r
    ensures r.Keys == st.Keys - {UserKey}
    ensures forall k :: k in r ==> r[k] == st[k]
  {
    map k | k in st && k != UserKey :: st[k]
  }

  /** `saveFavorites(favorites)` */
  function SaveFavorites(st: Store, favorites: seq<string>): Store {
    st[FavoritesKey := Json(IdsDoc(favorites))]
  }

  /** `getFavorites()`: `[]` for a missing or empty entry. */
  function GetFavorites(st: Store): (r: Result<seq<string>>)
    ensures !Holds(st, FavoritesKey) ==> r == Ok([])
    ensures Holds(st, FavoritesKey) ==> (r.Ok? <==> st[FavoritesKey].Json? && st[FavoritesKey].doc.IdsDoc?)
  {
    if !Holds(st, FavoritesKey) then Ok([])
    else match st[FavoritesKey]
      case Json(IdsDoc(ids)) => Ok(ids)
      case _ => Err("stored favorites are not a list of ids")
  }

  /** `toggleFavorite(id)`: read, toggle, persist, and return the list it persisted. */
  function ToggleFavorite(st: Store, id: string): (r: Result<(Store, seq<string>)>)
    ensures r.Ok? <==> GetFavorites(st).Ok?
    ensures r.Ok? ==> r.value.1 == Toggled(GetFavorites(st).value, id)
    ensures r.Ok? ==> GetFavorites(r.value.0) == Ok(r.value.1)
    ensures r.Ok? ==> r.value.0.Keys == st.Keys + {FavoritesKey}
    ensures r.Ok? ==> forall k :: k in st && k != FavoritesKey ==> r.value.0[k] == st[k]
  {
    var favorites :- GetFavorites(st);
    var updated := Toggled(favorites, id);
    Ok((SaveFavorites(st, updated), updated))
  }

  /** `localStorage.setItem("token", token)` at login. */
  function SaveToken(st: Store, token: string): Store {
    st[TokenKey := Text(token)]
  }

  /** `localStorage.getItem("token")`. */
  function GetToken(st: Store): (r: Option<string>)
    ensures r.Some? ==> TokenKey in st && st[TokenKey] == Text(r.value)
  {
    if TokenKey in st && st[TokenKey].Text? then Some(st[TokenKey].text) else None
  }

  /** Every entry this front-end reads holds what it writes there. */
  predicate WellFormed(st: Store) {
    && (Holds(st, PropertiesKey) ==> st[PropertiesKey].Json? && st[PropertiesKey].doc.PropertiesDoc?)
    && (Holds(st, UserKey) ==> st[UserKey].Json? && st[UserKey].doc.UserDoc?)
    && (Holds(st, FavoritesKey) ==> st[FavoritesKey].Json? && st[FavoritesKey].doc.IdsDoc?)
    && (TokenKey in st ==> st[TokenKey].Text?)
  }

  /** On a well-formed store no read throws. */
  lemma WellFormedReadsSucceed(st: Store)
    requires WellFormed(st)
    ensures GetProperties(st).Ok? && GetCurrentUser(st).Ok? && GetFavorites(st).Ok?
    ensures TokenKey in st ==> GetToken(st) == Some(st[TokenKey].text)
  {
  }

  /** Every write the front-end performs keeps the store well-formed. */
  lemma WritesPreserveWellFormed(st: Store, ps: seq<Property>, u: User, ids: seq<string>, id: string, token: string)
    requires WellFormed(st)
    ensures WellFormed(SaveProperties(st, ps))
    ensures WellFormed(SaveCurrentUser(st, u))
    ensures WellFormed(ClearCurrentUser(st))
    ensures WellFormed(SaveFavorites(st, ids))
    ensures WellFormed(SaveToken(st, token))
    ensures ToggleFavorite(st, id).Ok? && WellFormed(ToggleFavorite(st, id).value.0)
  {
  }

  /** `getCurrentUser()` right after `saveCurrentUser(u)` yields `u`; the other entries are untouched. */
  lemma SessionRoundTrip(st: Store, u: User)
    ensures GetCurrentUser(SaveCurrentUser(st, u)) == Ok(Some(u))
    ensures GetFavorites(SaveCurrentUser(st, u)) == GetFavorites(st)
    ensures GetToken(SaveCurrentUser(st, u)) == GetToken(st)
  {
  }

  /** After `clearCurrentUser()` there is no session, while the token and the favourites survive. */
  lemma ClearKeepsTokenAndFavorites(st: Store)
    ensures GetCurrentUser(ClearCurrentUser(st)) == Ok(None)
    ensures GetToken(ClearCurrentUser(st)) == GetToken(st)
    ensures GetFavorites(ClearCurrentUser(st)) == GetFavorites(st)
    ensures GetProperties(ClearCurrentUser(st)) == GetProperties(st)
  {
  }

  /** The property and favourite caches read back what was saved. */
  lemma CachesRoundTrip(st: Store, ps: seq<Property>, ids: seq<string>)
    ensures GetProperties(SaveProperties(st, ps)) == Ok(ps)
    ensures GetFavorites(SaveFavorites(st, ids)) == Ok(ids)
  {
  }
}

=== FILE: text.dfy ===
/** Character classes and string conversions of the JavaScript runtime that the
    front-end relies on: the `\s` class (used by `\S` in the email pattern and
    by `String.prototype.trim`), decimal rendering of numbers in template
    strings, `parseInt` on decimal input, and `length` in UTF-16 code units. */
module Text {
  import opened Base
  import opened Seqs

  /** JavaScript `\s`: the WhiteSpace and LineTerminator code points. */
  predicate IsSpace(c: char) {
    || c == '\t' || c == '\n' || c == '\U{000B}' || c == '\U{000C}' || c == '\r'
    || c == ' ' || c == '\U{00A0}' || c == '\U{1680}'
    || ('\U{2000}' <= c <= '\U{200A}')
    || c == '\U{2028}' || c == '\U{2029}' || c == '\U{202F}' || c == '\U{205F}'
    || c == '\U{3000}' || c == '\U{FEFF}'
  }

  /** True when every character of `s` is whitespace (the empty string included). */
  predicate Blank(s: string) {
    forall i :: 0 <= i < |s| ==> IsSpace(s[i])
  }

  /** `s.trimStart()` */
  function TrimStart(s: string): (r: string)
    ensures |r| <= |s| && r == s[|s| - |r|..]
    ensures |r| > 0 ==> !IsSpace(r[0])
    ensures Blank(s[..|s| - |r|])
  {
    if |s| > 0 && IsSpace(s[0]) then TrimStart(s[1..]) else s
  }

  /** `s.trimEnd()` */
  function TrimEnd(s: string): (r: string)
    ensures |r| <= |s| && r == s[..|r|]
    ensures |r| > 0 ==> !IsSpace(r[|r| - 1])
    ensures Blank(s[|r|..])
  {
    if |s| > 0 && IsSpace(s[|s| - 1]) then TrimEnd(s[..|s| - 1]) else s
  }

  /** `s.trim()` */
  function Trim(s: string): string {
    TrimEnd(TrimStart(s))
  }

  lemma {:induction false} TrimStartOfBlank(s: string)
    requires Blank(s)
    ensures TrimStart(s) == ""
  {
    if |s| > 0 {
      TrimStartOfBlank(s[1..]);
    }
  }

  /** `!s.trim()` holds exactly for the all-whitespace strings. */
  lemma TrimEmptyIffBlank(s: string)
    ensures Trim(s) == "" <==> Blank(s)
  {
    var t := TrimStart(s);
    var k := |s| - |t|;
    if Blank(s) {
      TrimStartOfBlank(s);
    }
    if Trim(s) == "" {
      assert t[0..] == t;
      assert t == "";
      assert s[..|s|] == s;
    }
  }

  predicate IsDigit(c: char) {
    '0' <= c <= '9'
  }

  predicate AllDigits(s: string) {
    forall i :: 0 <= i < |s| ==> IsDigit(s[i])
  }

  function DigitChar(d: nat): (c: char)
    requires d < 10
    ensures IsDigit(c) && c as int - '0' as int == d
  {
    ('0' as int + d) as char
  }

  /** The value of a string of decimal digits (0 for the empty string). */
  function DigitsValue(s: string): nat
    requires AllDigits(s)
  {
    if |s| == 0 then 0 else DigitsValue(s[..|s| - 1]) * 10 + (s[|s| - 1] as int - '0' as int)
  }

  /** `${n}` for a non-negative integer. */
  function NatToString(n: nat): (r: string)
    ensures |r| >= 1 && AllDigits(r)
    ensures |r| > 1 ==> r[0] != '0'
  {
    if n < 10 then [DigitChar(n)] else NatToString(n / 10) + [DigitChar(n % 10)]
  }

  /** Decimal rendering reads back as the number it renders. */
  lemma {:induction false} NatToStringRoundTrip(n: nat)
    ensures DigitsValue(NatToString(n)) == n
  {
    if n >= 10 {
      var r := NatToString(n);
      NatToStringRoundTrip(n / 10);
      assert r[..|r| - 1] == NatToString(n / 10);
    }
  }

  /** Decimal rendering is injective: distinct numbers print differently. */
  lemma NatToStringInjective(m: nat, n: nat)
    requires NatToString(m) == NatToString(n)
    ensures m == n
  {
    NatToStringRoundTrip(m);
    NatToStringRoundTrip(n);
  }

  /** `${i}` for any integer. */
  function IntToString(i: int): (r: string)
    ensures |r| >= 1
    ensures i >= 0 <==> r[0] != '-'
  {
    if i >= 0 then NatToString(i) else "-" + NatToString(-i)
  }

  /** The longest prefix of `s` made of decimal digits. */
  function DigitPrefix(s: string): (r: string)
    ensures |r| <= |s| && r == s[..|r|] && AllDigits(r)
    ensures |r| < |s| ==> !IsDigit(s[|r|])
  {
    if |s| > 0 && IsDigit(s[0]) then [s[0]] + DigitPrefix(s[1..]) else ""
  }

  /** `parseInt(s)` in base 10: leading whitespace, an optional sign, then the
      longest run of digits; `None` stands for `NaN`. */
  function ParseInt(s: string): Option<int> {
    var t := TrimStart(s);
    var negative := |t| > 0 && t[0] == '-';
    var body := if |t| > 0 && (t[0] == '-' || t[0] == '+') then t[1..] else t;
    var digits := DigitPrefix(body);
    if digits == "" then None
    else if negative then Some(-(DigitsValue(digits) as int))
    else Some(DigitsValue(digits))
  }

  /** `parseInt` reads back every rendered integer. */
  lemma ParseIntOfIntToString(i: int)
    ensures ParseInt(IntToString(i)) == Some(i)
  {
    var n: nat := if i >= 0 then i else -i;
    var d := NatToString(n);
    DigitPrefixOfDigits(d);
    NatToStringRoundTrip(n);
    if i < 0 {
      assert IntToString(i) == "-" + d;
      ParseIntNegative(d);
    } else {
      assert IntToString(i) == d;
      ParseIntPositive(d);
    }
  }

  lemma ParseIntPositive(d: string)
    requires |d| > 0 && AllDigits(d) && DigitPrefix(d) == d
    ensures ParseInt(d) == Some(DigitsValue(d))
  {
    assert !IsSpace(d[0]);
    assert TrimStart(d) == d;
  }

  lemma ParseIntNegative(d: string)
    requires |d| > 0 && AllDigits(d) && DigitPrefix(d) == d
    ensures ParseInt("-" + d) == Some(-(DigitsValue(d) as int))
  {
    var s := "-" + d;
    assert s[0] == '-' && !IsSpace(s[0]);
    assert TrimStart(s) == s;
    assert s[1..] == d;
    assert DigitPrefix(s[1..]) == d && d != "";
  }

  lemma {:induction false} DigitPrefixOfDigits(s: string)
    requires AllDigits(s)
    ensures DigitPrefix(s) == s
  {
    if |s| > 0 {
      DigitPrefixOfDigits(s[1..]);
    }
  }

  /** A character outside the Basic Multilingual Plane, which JavaScript
      strings store as a surrogate pair. */
  predicate Astral(c: char) {
    c as int >= 0x10000
  }

  /** JavaScript's `s.length`: UTF-16 code units, two per astral character. */
  function Utf16Length(s: string): (n: nat)
    ensures |s| <= n <= 2 * |s|
  {
    if |s| == 0 then 0 else (if Astral(s[0]) then 2 else 1) + Utf16Length(s[1..])
  }

  /** `s.length` counts one unit per astral character more than the number of characters. */
  lemma {:induction false} Utf16LengthCountsAstral(s: string)
    ensures Utf16Length(s) == |s| + |Filter(s, Astral)|
  {
    if |s| > 0 {
      Utf16LengthCountsAstral(s[1..]);
    }
  }
}
